=== FILE: README.md ===
# Calendar App — a Dafny model

The application is a single React component, `Calendar`. It shows one month as a seven-column grid. Each day cell lists that day's events. A click on a day opens an "Add Event" dialog; a click on an event opens an "Edit Event" dialog. The dialog's form holds a title, a time, a colour and a repeat setting: none, daily, weekly or monthly. On save, a repeating event is also copied onto the twelve following occurrences. Events are kept in a map from a day's `YYYY-MM-DD` key to that day's ordered list of events.

The model has seven modules:

- `Dates` covers the JavaScript `Date` arithmetic the component relies on:
  - days in a month, and the leap-year rule;
  - the day number and the weekday;
  - how `new Date(y, m, d)`, `setDate` and `setMonth` carry an out-of-range month or day into the neighbouring months and years.
- `DateKeys` defines the two kinds of key:
  - the grid's key, built from `getFullYear()` and zero-padded month and day;
  - the expander's key, from `toISOString().split("T")[0]`;
  - and `new Date(key)` for such a key.
- `Recurrence` models `generateRecurringDates` and its loop.
- `EventStore` holds the store updates made by the save and delete handlers.
- `CalendarState` describes the component's five pieces of state as one value:
  - the transition each handler and button makes;
  - the invariant every enabled action keeps;
  - the three dialog modes: no dialog, "Add Event" and "Edit Event".
- `CalendarApp` contains:
  - the component as a class whose fields the handlers update in place, with each handler proved to make the `CalendarState` transition;
  - the two loops of `renderCalendar` and the `forEach` of the save handler, as methods.
- `Options` defines an option type.

## Model

| member | source | states |
|---|---|---|
| Dates.DaysInMonth | src/App.js:27 | a month has between 28 and 31 days |
| Dates.Weekday | src/App.js:30 | `getDay()` is a column from 0 (Sunday) to 6; `WeekdayInMonth` and `NewYear2024IsMonday` tie it to the calendar |
| Dates.Normalize | src/App.js:118-120 | normalising any day offset in any month yields a real calendar date |
| Dates.NormalizeDayNumber | src/App.js:118-120 | a normalised date lies exactly `day - 1` days after the 1st of the month it was given (ECMAScript `MakeDay`) |
| Dates.MakeDate | src/App.js:17 | `new Date(year, monthIndex, day)` is always a real date, whatever the month index and the day |
| Dates.MakeDateInMonth | src/App.js:26 | `new Date(y, monthIndex, d)` with `d` inside the month is that very date, so `firstDay` is the 1st of the displayed month |
| Dates.LastDayOfMonth | src/App.js:27 | day 0 of the next month is the last day of this month, so `lastDay.getDate()` is the month's length |
| Dates.WeekdayInMonth | src/App.js:30-34 | day `d` falls `d - 1` weekdays after the 1st, so after `getDay()` blanks it lands in its own weekday's column |
| Dates.DayNumberOrder | src/App.js:116-122 | day numbers order real dates exactly as the calendar does, and equal day numbers mean equal dates |
| Dates.NewYear2024IsMonday | src/App.js:30 | the weekday numbering agrees with `getDay()` on 2024-01-01, a Monday (1) |
| DateKeys.PadValue | src/App.js:35 | zero-padding a month or day keeps the number it denotes |
| DateKeys.GridKey | src/App.js:35 | the grid's key `${year}-MM-DD`: for a month and day below 100 it is the year text followed by six characters, with `-` before the two-character month and before the two-character day (`GridKeyInjective`, `GridKeyIsIsoKey` and `GridKeyParses` state the rest) |
| DateKeys.IsoKey | src/App.js:121 | the date part of `toISOString()`: for years 0 to 9999 it is exactly ten characters with `-` at positions 4 and 7, the `YYYY-MM-DD` form (`IsoKeyInjective` and `ParseIsoKeyRoundTrip` state the rest) |
| DateKeys.ParseIsoKey | src/App.js:115 | a string it accepts is ten characters long and names a real date with a year from 0 to 9999; `ParseIsoKeyRoundTrip` and `ParseIsoKeyOnlyKeys` make it the inverse of `IsoKey` |
| DateKeys.GridKeyInjective | src/App.js:35 | two grid cells share a key if and only if they are the same year, month and day |
| DateKeys.IsoKeyInjective | src/App.js:121 | two dates share a `toISOString` key if and only if they are equal |
| DateKeys.GridKeyIsIsoKey | src/App.js:35 | for years 1000 to 9999 the grid's key equals the `toISOString` key of the same day |
| DateKeys.ParseIsoKeyRoundTrip | src/App.js:115 | `new Date(key)` on the key of a date with a year from 0 to 9999 gives back that date |
| DateKeys.ParseIsoKeyOnlyKeys | src/App.js:115 | every string `ParseIsoKey` accepts (the `YYYY-MM-DD` form of `new Date(string)`) is exactly the key of the date it returns |
| DateKeys.GridKeyParses | src/App.js:35 | the key of any grid cell in years 1000 to 9999 reads back as the cell's date, so the expander can start from it |
| Recurrence.RecurringDate | src/App.js:117-120 | every occurrence, with any of the three setters or none, is a real date |
| Recurrence.GenerateRecurringDates | src/App.js:113-124 | the result is the keys of occurrences 1 to 12 of the date the start key denotes, in order |
| Recurrence.ExpandOccurrences | src/App.js:116-123 | the loop pushes occurrence `i`'s key at turn `i`, giving the twelve keys in order |
| Recurrence.Occurrence | src/App.js:117-120 | one turn's clone with the selected setter applied is occurrence `i` |
| Recurrence.OccurrenceZero | src/App.js:117 | occurrence 0 is the start date under every repeat kind: the clone of src/App.js:117 before any setter adds an offset |
| Recurrence.DailyStep | src/App.js:118 | daily occurrence `i` lies exactly `i` days after the start |
| Recurrence.WeeklyStep | src/App.js:119 | weekly occurrence `i` lies exactly `7 * i` days after the start, on the same weekday |
| Recurrence.DailyWithinMonth | src/App.js:118 | a daily step that stays inside the month only adds to the day of the month |
| Recurrence.DailyRollover | src/App.js:118 | a daily step from a month's last day lands on the 1st of the next month, carrying the year after December |
| Recurrence.DailyRolloverExample | src/App.js:118 | a daily event saved on 2024-01-31 recurs on 2024-02-01 to 2024-02-12 |
| Recurrence.MonthlyStep | src/App.js:120 | monthly occurrence `i` keeps the day of the month `i` months later; a day the target month lacks spills into the month after it |
| Recurrence.MonthlyOverflowExample | src/App.js:120 | one month after 2023-01-31 is 2023-03-03, and one month after 2024-01-31 is 2024-03-02 |
| Recurrence.RecurringIncreasing | src/App.js:116-120 | daily, weekly and monthly occurrences move strictly forward: a later `i` is a later date, and every occurrence comes after the start |
| Recurrence.OccurrencesIncreasing | src/App.js:116-122 | the twelve occurrences come in strictly increasing order |
| Recurrence.OccurrencesAfterStart | src/App.js:116-122 | every occurrence comes after the start date |
| Recurrence.IncreasingKeysDistinct | src/App.js:121 | dates in strictly increasing order have pairwise distinct keys |
| Recurrence.EarlierKeyAbsent | src/App.js:121 | the key of a date before all of a list's dates is not among the list's keys |
| Recurrence.RecurringKeysDistinct | src/App.js:113-124 | a daily, weekly or monthly expansion gives exactly twelve pairwise distinct keys, none equal to the start key |
| EventStore.AppendEachEffect | src/App.js:85-87 | appending under distinct keys appends the event exactly once to each of their lists, creating missing ones; every other key keeps its list |
| EventStore.AppendEachNoEmptyLists | src/App.js:85-87 | appending under any keys keeps every stored list non-empty |
| EventStore.WriteAtEffect | src/App.js:79 | `list[index] = e` inside the list replaces that one event and keeps the length; at the length it appends; no other day changes |
| EventStore.RemoveAtEffect | src/App.js:102-103 | splicing an event out keeps the others in order and drops the day exactly when it held only that event; other days are untouched |
| EventStore.RemoveAtNoEmptyLists | src/App.js:102-103 | after the splice and the delete no day is stored with an empty list |
| EventStore.RemoveAtPastEnd | src/App.js:102-103 | a splice past the end of a non-empty list leaves the store unchanged |
| CalendarState.MonthChange | src/App.js:15-18 | the displayed date is always real; for a month index from 0 to 11 it is the 1st of that month in the same year; nothing else changes |
| CalendarState.YearChange | src/App.js:20-23 | the displayed date is always real and is the 1st of the same month in the chosen year; nothing else changes |
| CalendarState.CancelAsWritten | src/App.js:200 | the Cancel button as written closes the dialog (`selectedDate` becomes none) and changes nothing else: the events, the month, the edited index and the form stay, so from "Edit Event" it reaches a state in no mode that breaks the invariant |
| CalendarState.Save | src/App.js:70-96 | the displayed month never changes, and a save either changes nothing or closes the dialog with an empty form; `SaveOutcome`, `SaveOnSelectedDay` and `SaveRepeats` describe the new store |
| CalendarState.Delete | src/App.js:98-111 | delete always closes the dialog with an empty form and the same month, and without an edited event keeps the store; `DeleteEffect` describes the removal |
| CalendarState.Cancel | src/App.js:200 | the corrected Cancel takes a state satisfying the invariant to one with no dialog that still satisfies it, keeping the events and the month |
| CalendarState.InitInv | src/App.js:5-9 | mounting with today's date, a stored map with no empty lists and the default form starts with no dialog and satisfies the invariant |
| CalendarState.StepPreservesInv | src/App.js:15-207 | with the corrected Cancel, every action the page offers keeps the invariant. The offered actions are the month and year selectors at any time (they stay reachable from the keyboard while the dialog is open), the grid while no dialog is open, and the form, Cancel, Save and (in edit mode only) Delete while one is. The invariant says: the date is real, no day has an empty list, the state is in exactly one mode, the dialog's key reads back as a date, and the edited index points at an event |
| CalendarState.SaveKeepsNoEmptyLists | src/App.js:76-91 | saving never leaves a day with an empty list, from any store without empty lists, including the stale "Edit Event" save at an index equal to the day's length that the as-written Cancel allows |
| CalendarState.SaveOutcome | src/App.js:70-96 | save changes nothing if and only if the title or the time is empty (the alert); otherwise it closes the dialog and empties the form; the displayed month never changes |
| CalendarState.SaveOnSelectedDay | src/App.js:78-82 | "Add Event" appends the form to the day's list; "Edit Event" replaces the edited event in place and keeps the list's length |
| CalendarState.SaveRepeats | src/App.js:84-88 | a repeating event is appended once to each of the twelve expanded days; every other day except the dialog's keeps its events; this holds for every save the page performs, including the stale one the as-written Cancel allows |
| CalendarState.SaveOnceTouchesOneDay | src/App.js:76-91 | without a repeat, saving changes only the dialog's day |
| CalendarState.DeleteEffect | src/App.js:98-111 | delete closes the dialog and empties the form. In "Add Event" mode the store is unchanged. In "Edit Event" mode the edited event is removed, the rest stay in order, the day is dropped if that was its last event, and other days are untouched |
| CalendarState.ReopenAndSaveKeepsEvents | src/App.js:53-58 | opening an event that does not repeat and saving it unchanged leaves the store as it was |
| CalendarState.StaleEditOverwrites | src/App.js:200 | with Cancel as written, a later click on another day opens it in edit mode at the stale index, and saving overwrites that day's event; with the resetting Cancel the same clicks append |
| CalendarState.StaleIndexAtLength | src/App.js:200 | with Cancel as written and a stale index equal to the new day's length, "Edit Event" saving appends to that day, and Delete leaves the store unchanged |
| CalendarState.StaleEditDeletes | src/App.js:200-205 | with Cancel as written, the stale dialog on another day offers Delete, which removes that day's event at the stale index although it was never opened; with the resetting Cancel the same clicks open "Add Event" and Delete changes nothing |
| CalendarState.CancelThenClickAdds | src/App.js:200 | with the resetting Cancel, a day clicked after cancelling always opens "Add Event" with an empty form and the same events |
| CalendarApp.GridLayout | src/App.js:30-34 | a grid of `blanks` blanks and `n` days has `blanks + n` cells, blanks first, and day `d` at position `blanks + d - 1` with its own key, highlight and events |
| CalendarApp.MonthGrid | src/App.js:25-68 | the grid has one cell per weekday before the 1st plus one per day of the month; `GridLayout` places each cell |
| CalendarApp.RenderDay | src/App.js:35-37 | a day cell carries the day's padded key, is highlighted exactly when it is today, and lists the events stored under the key (none when absent) |
| CalendarApp.AppendToEach | src/App.js:85-87 | the `forEach` appends the event under each date in turn, first date first |
| CalendarApp.MonthBounds | src/App.js:26-27 | the number of blanks is the weekday of the 1st (0 to 6) and `lastDay.getDate()` is the month's length |
| CalendarApp.LayOutMonth | src/App.js:30-65 | the two loops produce the blanks, then the cells of days 1 to `lastDay`, in order |
| CalendarApp.Calendar.constructor | src/App.js:5-9 | the mounted component is in the initial state with no dialog and satisfies the invariant |
| CalendarApp.Calendar.HandleMonthChange | src/App.js:15-18 | the displayed date becomes the 1st of the chosen month of the same year; the invariant holds |
| CalendarApp.Calendar.HandleYearChange | src/App.js:20-23 | the displayed date becomes the 1st of the same month of the chosen year; the invariant holds |
| CalendarApp.Calendar.SelectDay | src/App.js:45 | a day click opens "Add Event" on that day's key and changes nothing else |
| CalendarApp.Calendar.SelectEvent | src/App.js:53-58 | an event click opens "Edit Event" on that event, with the form filled from it |
| CalendarApp.Calendar.UpdateForm | src/App.js:173-191 | typing changes only the form |
| CalendarApp.Calendar.Cancel | src/App.js:200 | the corrected Cancel closes the dialog, clears the edited index and empties the form |
| CalendarApp.Calendar.HandleSaveEvent | src/App.js:70-96 | the fields end up as the `Save` transition says, which `SaveOutcome`, `SaveOnSelectedDay` and `SaveRepeats` describe; the invariant holds |
| CalendarApp.Calendar.HandleDeleteEvent | src/App.js:98-111 | the fields end up as the `Delete` transition says, which `DeleteEffect` describes; the dialog is closed and the invariant holds |
| CalendarApp.Calendar.RenderCalendar | src/App.js:25-68 | the cells are the month grid: one blank per weekday before the 1st, then every day of the month in order, as `GridLayout` spells out |

## Left out

- Rendering is not modelled: JSX, CSS classes, the month names in the selector, the event text in each cell and the colour swatch are all omitted. A cell keeps only its day, key, highlight and events.
- Persistence is not modelled: the `localStorage` read on mount and the write on every change are omitted, and so is JSON. The constructor takes the stored map as a parameter.
- The clock is not modelled: `new Date()` on mount and in the today check becomes a `today` parameter.
- Time zones are not modelled: all dates are taken as UTC. `new Date("YYYY-MM-DD")` is midnight UTC, while `setDate` and `setMonth` work in local time. Two cases then differ from the model:
  - West of UTC, a monthly expansion from the 1st starts from the previous month's last day in local time. In UTC-5, "2024-03-01" monthly gives "2024-03-30" for i = 1, where the model gives 2024-04-01. Daily and weekly keys in a zone with a fixed offset come out as in the model.
  - In a zone with daylight saving, a daily or weekly expansion across the clock change repeats one key and skips another. In Europe/Berlin, "2024-03-30" daily gives "2024-03-31" for both i = 1 and i = 2.
  
  `Recurrence.RecurringKeysDistinct` and `CalendarState.SaveRepeats` therefore hold only in UTC.
- `alert` is modelled only as a save that changes no state.
- React's batching of state updates is not modelled. Each handler is one atomic transition.
- Aliasing is not modelled. `{ ...prev }` is a shallow copy, so editing and deleting also mutate the day's array inside the previous state object. The model replaces the whole list in a fresh map, so that shared mutation is not captured.
- A range of JavaScript `Date` behaviour is not modelled:
  - the ±8.64e15 ms limit on time values;
  - the two-digit-year rule of `new Date(y, m, d)` for years 0 to 99;
  - extended six-digit years in `new Date(string)`.
  
  The invariant keeps the displayed year between 1000 and 9999. In that range the grid key and the `toISOString` key agree (`DateKeys.GridKeyIsIsoKey`). Below it they differ, because the grid does not pad the year.
- `DateKeys.ParseIsoKey` accepts only `YYYY-MM-DD` strings that name a real date. Only keys of real grid days ever reach it.
- Stale edit indexes are modelled only partly. They arise only after the Cancel button as written. `EventStore.WriteAt` and `EventStore.RemoveAt` follow the source for the cases that store only events:
  - an index equal to the day's length appends (`CalendarState.StaleIndexAtLength`);
  - a splice past the end does nothing (`EventStore.RemoveAtPastEnd`).

  `SaveDefined` and `DeleteDefined` exclude the remaining states:
  - A stale index on a day with no list throws a TypeError in the source.
  - A write beyond the length leaves holes in the array. The next render still works, because `map` skips holes (src/App.js:48). It throws on `event.color` (src/App.js:52) later: after a reload, since `JSON.stringify` stored the holes as `null`; or after the next append to that day, since the spread at src/App.js:81 and :86 turns holes into `undefined` entries. The model's lists cannot hold holes.
  - A repeat on a key that is not a date throws in `toISOString`. No such key reaches the dialog.
- CalendarApp.Calendar.HandleSaveEvent: in "Edit Event" mode a repeating event is appended again to its twelve days on every save, as in the source. The model states this but does not flag it as unintended.
- Recurrence.GenerateRecurringDates: with repeat "none" the loop returns twelve copies of the start key, because no setter fires. The model follows the code. The save handler never calls it that way.
- CalendarApp.Calendar.UpdateForm: the four `onChange` handlers, each of which replaces one field, are modelled as one replacement of the whole form.
- CalendarApp.Calendar.RenderCalendar: its contract places day `d` after the blanks; that this is the day's weekday column is stated separately by `Dates.WeekdayInMonth`.

## Findings

| source | as written | input that shows it | evidently intended | confidence | as-written member | corrected member |
|---|---|---|---|---|---|---|
| src/App.js:200 | Cancel only clears `selectedDate`; `editingIndex` and the form keep the event that was being edited | day 5 holds `a`, day 6 holds `b`; click `a`, press Cancel, click day 6, type `c`, Save: the dialog says "Edit Event" and `c` overwrites `b` | Cancel resets the dialog as Save and Delete do, so the next day click opens "Add Event" and `c` is appended after `b`; the same path lets Delete remove an unopened event (`CalendarState.StaleEditDeletes`) | not executed | CalendarState.StaleEditOverwrites | CalendarState.Cancel |

=== FILE: calendar.dfy ===
/**
 * The `Calendar` component as an object: its five pieces of state are fields
 * that the handlers update, and each handler is proved to make exactly the
 * transition `CalendarState` describes while keeping the invariant.
 */
module CalendarApp {
  import opened Options
  import opened Dates
  import opened DateKeys
  import opened Recurrence
  import opened EventStore
  import opened CalendarState

  /** A cell of the month grid: an empty leading cell, or a day with its key, its highlight and its events. */
  datatype Cell = Blank | DayCell(day: int, key: string, isToday: bool, events: seq<Event>)

  /** The cell of day `d` of a month: its key, whether it is `today`, and the events stored under the key. */
  function DayCellOf(year: int, month: int, d: int, today: Date, events: Store): Cell
    requires 1 <= month <= 12 && 1 <= d
  {
    DayCell(d, GridKey(year, month, d), today == Date(year, month, d), ListAt(events, GridKey(year, month, d)))
  }

  /** The cells of days 1 to `n`, in order. */
  function DayCells(year: int, month: int, n: nat, today: Date, events: Store): seq<Cell>
    requires 1 <= month <= 12
  {
    if n == 0 then [] else DayCells(year, month, n - 1, today, events) + [DayCellOf(year, month, n, today, events)]
  }

  function Blanks(n: nat): seq<Cell> {
    if n == 0 then [] else Blanks(n - 1) + [Blank]
  }

  /** The month grid: one blank per weekday before the 1st, then every day of the month. */
  function MonthGrid(year: int, month: int, today: Date, events: Store): (cells: seq<Cell>)
    requires 1 <= month <= 12
    ensures |cells| == Weekday(Date(year, month, 1)) + DaysInMonth(year, month)
  {
    BlanksShape(Weekday(Date(year, month, 1)));
    DayCellsShape(year, month, DaysInMonth(year, month), today, events);
    Blanks(Weekday(Date(year, month, 1))) + DayCells(year, month, DaysInMonth(year, month), today, events)
  }

  lemma {:induction false} BlanksShape(n: nat)
    ensures |Blanks(n)| == n && forall k :: 0 <= k < n ==> Blanks(n)[k] == Blank
  {
    if n > 0 {
      BlanksShape(n - 1);
    }
  }

  lemma {:induction false} DayCellsShape(year: int, month: int, n: nat, today: Date, events: Store)
    requires 1 <= month <= 12
    ensures var cells := DayCells(year, month, n, today, events);
      |cells| == n && forall d :: 1 <= d <= n ==> cells[d - 1] == DayCellOf(year, month, d, today, events)
  {
    if n > 0 {
      DayCellsShape(year, month, n - 1, today, events);
    }
  }

  /**
   * A grid with `blanks` leading blanks and `n` days has one cell for each,
   * and day `d` sits at position `blanks + d - 1` with its key, its
   * highlight and its events; with `blanks` the weekday of the 1st
   * (`MonthGrid`), `Dates.WeekdayInMonth` shows that position is in the
   * column of the day's weekday.
   */
  lemma GridLayout(year: int, month: int, blanks: nat, n: nat, today: Date, events: Store)
    requires 1 <= month <= 12
    ensures var cells := Blanks(blanks) + DayCells(year, month, n, today, events);
      |cells| == blanks + n
      && (forall k :: 0 <= k < blanks ==> cells[k] == Blank)
      && (forall d :: 1 <= d <= n ==> cells[blanks + d - 1] == DayCellOf(year, month, d, today, events))
  {
    BlanksShape(blanks);
    DayCellsShape(year, month, n, today, events);
  }

  /**
   * One day cell of `renderCalendar`: the key built from the year and the
   * padded month and day, the highlight when `today` and
   * `new Date(year, month - 1, day)` give the same `toDateString()`, and
   * `events[dateStr] || []`.
   */
  method RenderDay(year: int, month: int, day: int, today: Date, events: Store) returns (cell: Cell)
    requires 1 <= month <= 12 && 1 <= day <= DaysInMonth(year, month)
    ensures cell == DayCellOf(year, month, day, today, events)
  {
    var dateStr := GridKey(year, month, day);
    var date := MakeDate(year, month - 1, day);
    MakeDateInMonth(year, month - 1, day);
    var isToday := today == date;
    var dayEvents := if dateStr in events then events[dateStr] else [];
    cell := DayCell(day, dateStr, isToday, dayEvents);
  }

  /** The save handler's `forEach`: `updated[date] = [...(updated[date] || []), e]` for each date in turn. */
  method AppendToEach(store: Store, dates: seq<string>, e: Event) returns (updated: Store)
    ensures updated == AppendEach(store, dates, e)
  {
    updated := store;
    var i := 0;
    while i < |dates|
      invariant 0 <= i <= |dates|
      invariant updated == AppendEach(store, dates[..i], e)
    {
      assert dates[..i + 1][..i] == dates[..i];
      updated := updated[dates[i] := ListAt(updated, dates[i]) + [e]];
      i := i + 1;
    }
    assert dates[..|dates|] == dates;
  }

  /**
   * The grid's two dates: `firstDay` gives the number of leading blanks (its
   * weekday) and `lastDay`, day 0 of the next month, gives the number of days.
   */
  method MonthBounds(year: int, monthIndex: int) returns (blanks: int, lastDay: int)
    requires 0 <= monthIndex < 12
    ensures blanks == Weekday(Date(year, monthIndex + 1, 1)) && 0 <= blanks < 7
    ensures lastDay == DaysInMonth(year, monthIndex + 1)
  {
    var firstDay := MakeDate(year, monthIndex, 1);
    var last := MakeDate(year, monthIndex + 1, 0);
    MakeDateInMonth(year, monthIndex, 1);
    LastDayOfMonth(year, monthIndex);
    blanks := Weekday(firstDay);
    lastDay := last.day;
  }

  /** The two loops of `renderCalendar`: `blanks` empty cells, then the cells of days 1 to `lastDay`. */
  method LayOutMonth(year: int, month: int, blanks: nat, lastDay: int, today: Date, events: Store)
    returns (cells: seq<Cell>)
    requires 1 <= month <= 12 && lastDay == DaysInMonth(year, month)
    ensures cells == Blanks(blanks) + DayCells(year, month, lastDay, today, events)
  {
    cells := [];
    var i := 0;
    while i < blanks
      invariant 0 <= i <= blanks
      invariant cells == Blanks(i)
    {
      cells := cells + [Blank];
      i := i + 1;
    }
    var days: seq<Cell> := [];
    var day := 1;
    while day <= lastDay
      invariant 1 <= day <= lastDay + 1
      invariant days == DayCells(year, month, day - 1, today, events)
    {
      var cell := RenderDay(year, month, day, today, events);
      days := days + [cell];
      day := day + 1;
    }
    cells := cells + days;
  }

  class Calendar {
    var currentDate: Date
    var events: Store
    var selectedDate: Option<string>
    var editingIndex: Option<nat>
    var newEvent: Event

    /** The fields as a `CalendarState.State` value. */
    function Snapshot(): State
      reads this
    {
      State(currentDate, events, selectedDate, editingIndex, newEvent)
    }

    ghost predicate Valid()
      reads this
    {
      Inv(Snapshot())
    }

    /** Mounting: the displayed date is today, the events are the stored ones. */
    constructor (today: Date, stored: Store)
      requires ValidDate(today) && 1000 <= today.year <= 9999 && NoEmptyLists(stored)
      ensures Snapshot() == Init(today, stored) && IsIdle(Snapshot()) && Valid()
    {
      currentDate := today;
      events := stored;
      selectedDate := None;
      editingIndex := None;
      newEvent := EMPTY_FORM;
    }

    /** `handleMonthChange` with the month selector's value. */
    method HandleMonthChange(monthIndex: int)
      requires Valid() && 0 <= monthIndex < 12
      modifies this
      ensures Snapshot() == MonthChange(old(Snapshot()), monthIndex) && Valid()
      ensures currentDate == Date(old(currentDate.year), monthIndex + 1, 1)
    {
      currentDate := MakeDate(currentDate.year, monthIndex, 1);
      MakeDateInMonth(old(currentDate.year), monthIndex, 1);
    }

    /** `handleYearChange` with the year selector's value. */
    method HandleYearChange(year: int)
      requires Valid() && FIRST_YEAR <= year <= LAST_YEAR
      modifies this
      ensures Snapshot() == YearChange(old(Snapshot()), year) && Valid()
      ensures currentDate == Date(year, old(currentDate.month), 1)
    {
      currentDate := MakeDate(year, currentDate.month - 1, 1);
      MakeDateInMonth(year, old(currentDate.month) - 1, 1);
    }

    /** A day cell's `onClick`. */
    method SelectDay(day: int)
      requires Valid() && selectedDate.None? && 1 <= day <= DaysInMonth(currentDate.year, currentDate.month)
      modifies this
      ensures Snapshot() == CalendarState.SelectDay(old(Snapshot()), day) && IsAdding(Snapshot()) && Valid()
    {
      selectedDate := Some(GridKey(currentDate.year, currentDate.month, day));
      GridKeyParses(Date(currentDate.year, currentDate.month, day));
    }

    /** An event's `onClick` inside a day cell. */
    method SelectEvent(day: int, index: nat)
      requires Valid() && selectedDate.None? && 1 <= day <= DaysInMonth(currentDate.year, currentDate.month)
      requires DayKey(Snapshot(), day) in events && index < |events[DayKey(Snapshot(), day)]|
      modifies this
      ensures Snapshot() == CalendarState.SelectEvent(old(Snapshot()), day, index) && IsEditing(Snapshot()) && Valid()
    {
      var dateStr := GridKey(currentDate.year, currentDate.month, day);
      editingIndex := Some(index);
      selectedDate := Some(dateStr);
      newEvent := events[dateStr][index];
      GridKeyParses(Date(currentDate.year, currentDate.month, day));
    }

    /** The form inputs' `onChange`. */
    method UpdateForm(form: Event)
      requires Valid()
      modifies this
      ensures Snapshot() == CalendarState.UpdateForm(old(Snapshot()), form) && Valid()
    {
      newEvent := form;
    }

    /** The Cancel button, resetting the dialog as the save and delete handlers do. */
    method Cancel()
      requires Valid()
      modifies this
      ensures Snapshot() == CalendarState.Cancel(old(Snapshot())) && IsIdle(Snapshot()) && Valid()
    {
      newEvent := EMPTY_FORM;
      selectedDate := None;
      editingIndex := None;
    }

    /**
     * `handleSaveEvent`: an incomplete form changes nothing; otherwise the
     * form replaces the edited event or is appended to the day, is appended
     * to each recurring day in the expander's order, and the dialog resets.
     */
    method HandleSaveEvent()
      requires Valid() && selectedDate.Some?
      modifies this
      ensures Snapshot() == Save(old(Snapshot())) && Valid()
    {
      StepPreservesInv(Snapshot(), PressSave);
      if newEvent.title == "" || newEvent.time == "" {
        return;
      }
      var key, e := selectedDate.value, newEvent;
      var updated := events;
      if editingIndex.Some? {
        updated := updated[key := updated[key][editingIndex.value := e]];
      } else {
        updated := updated[key := ListAt(events, key) + [e]];
      }
      if e.repeat != NoRepeat {
        var dates := GenerateRecurringDates(key, e.repeat);
        updated := AppendToEach(updated, dates, e);
      }
      events := updated;
      newEvent := EMPTY_FORM;
      selectedDate := None;
      editingIndex := None;
    }

    /** `handleDeleteEvent`: splice the edited event out, drop an emptied day, reset the dialog. */
    method HandleDeleteEvent()
      requires Valid() && selectedDate.Some?
      modifies this
      ensures Snapshot() == Delete(old(Snapshot())) && IsIdle(Snapshot()) && Valid()
    {
      if editingIndex.Some? {
        StepPreservesInv(Snapshot(), PressDelete);
        var key, i := selectedDate.value, editingIndex.value;
        var list := events[key][..i] + events[key][i + 1..];
        if |list| == 0 {
          events := events - {key};
        } else {
          events := events[key := list];
        }
      }
      newEvent := EMPTY_FORM;
      selectedDate := None;
      editingIndex := None;
    }

    /**
     * `renderCalendar` for the displayed month: the weekday of the 1st and
     * the length of the month, then the cells laid out from them.
     */
    method RenderCalendar(today: Date) returns (cells: seq<Cell>)
      requires 1 <= currentDate.month <= 12
      ensures cells == MonthGrid(currentDate.year, currentDate.month, today, events)
    {
      var blanks, lastDay := MonthBounds(currentDate.year, currentDate.month - 1);
      cells := LayOutMonth(currentDate.year, currentDate.month, blanks, lastDay, today, events);
    }
  }
}

=== FILE: calendar_state.dfy ===
/**
 * The calendar component's state and the transitions its handlers make, as
 * values: the displayed month, the event store, the open dialog's day, the
 * index of the event the dialog edits, and the dialog's form.
 */
module CalendarState {
  import opened Options
  import opened Dates
  import opened DateKeys
  import opened Recurrence
  import opened EventStore

  /** The form's value on mount and after every save or delete. */
  const EMPTY_FORM := Event("", "", "#3b82f6", NoRepeat)

  /** The range of the year selector. */
  const FIRST_YEAR := 2000
  const LAST_YEAR := 2049

  datatype State = State(
    currentDate: Date,             // a day of the displayed month
    events: Store,
    selectedDate: Option<string>,  // the day whose dialog is open
    editingIndex: Option<nat>,     // which of that day's events the dialog edits
    newEvent: Event)               // the dialog's form

  /** No dialog is open. */
  predicate IsIdle(st: State) {
    st.selectedDate.None? && st.editingIndex.None?
  }

  /** The dialog is open on a day and will add a new event to it ("Add Event"). */
  predicate IsAdding(st: State) {
    st.selectedDate.Some? && st.editingIndex.None?
  }

  /** The dialog is open on one of a day's events ("Edit Event"). */
  predicate IsEditing(st: State) {
    st.selectedDate.Some? && st.editingIndex.Some?
  }

  /**
   * What holds in every reachable state: the displayed date is a real date
   * with a four-digit year, no day is stored with an empty list, the state is
   * in exactly one of the three modes, an open dialog's day has a key that
   * reads back as a date, and an edited index points at an event of that day.
   */
  predicate Inv(st: State) {
    ValidDate(st.currentDate) && 1000 <= st.currentDate.year <= 9999
    && NoEmptyLists(st.events)
    && (IsIdle(st) || IsAdding(st) || IsEditing(st))
    && (st.selectedDate.Some? ==> ParseIsoKey(st.selectedDate.value).Some?)
    && (IsEditing(st) ==>
          st.selectedDate.value in st.events
          && st.editingIndex.value < |st.events[st.selectedDate.value]|)
  }

  /** Mounting: today's date, the stored events, no dialog, an empty form. */
  function Init(today: Date, stored: Store): State {
    State(today, stored, None, None, EMPTY_FORM)
  }

  /** `handleMonthChange`: the 1st of the chosen month (0-based index) of the displayed year. */
  function MonthChange(st: State, monthIndex: int): (r: State)
    ensures ValidDate(r.currentDate)
    ensures 0 <= monthIndex < 12 ==> r.currentDate == Date(st.currentDate.year, monthIndex + 1, 1)
    ensures r.(currentDate := st.currentDate) == st
  {
    st.(currentDate := MakeDate(st.currentDate.year, monthIndex, 1))
  }

  /** `handleYearChange`: the 1st of the displayed month of the chosen year. */
  function YearChange(st: State, year: int): (r: State)
    ensures ValidDate(r.currentDate)
    ensures 1 <= st.currentDate.month <= 12 ==> r.currentDate == Date(year, st.currentDate.month, 1)
    ensures r.(currentDate := st.currentDate) == st
  {
    st.(currentDate := MakeDate(year, st.currentDate.month - 1, 1))
  }

  /** The key of a day of the displayed month, as the grid builds it. */
  function DayKey(st: State, day: int): string
    requires 1 <= st.currentDate.month <= 12 && 1 <= day
  {
    GridKey(st.currentDate.year, st.currentDate.month, day)
  }

  /** A click on a day cell opens the dialog on that day; nothing else changes. */
  function SelectDay(st: State, day: int): State
    requires 1 <= st.currentDate.month <= 12 && 1 <= day
  {
    st.(selectedDate := Some(DayKey(st, day)))
  }

  /** A click on an event of a day opens the dialog on that event with the form filled from it. */
  function SelectEvent(st: State, day: int, index: nat): State
    requires 1 <= st.currentDate.month <= 12 && 1 <= day
    requires DayKey(st, day) in st.events && index < |st.events[DayKey(st, day)]|
  {
    st.(editingIndex := Some(index), selectedDate := Some(DayKey(st, day)),
        newEvent := st.events[DayKey(st, day)][index])
  }

  /** The form's `onChange` handlers: the form takes the edited value. */
  function UpdateForm(st: State, form: Event): State {
    st.(newEvent := form)
  }

  /** The Cancel button as written: it closes the dialog and keeps the edited index and the form. */
  function CancelAsWritten(st: State): (r: State)
    ensures r.selectedDate.None? && r.(selectedDate := st.selectedDate) == st
    ensures IsEditing(st) ==> !Inv(r) && !IsIdle(r)
    ensures r.editingIndex == st.editingIndex && r.newEvent == st.newEvent
  {
    st.(selectedDate := None)
  }

  /** The Cancel button as the save and delete handlers' reset implies: back to no dialog and an empty form. */
  function Cancel(st: State): (r: State)
    ensures Inv(st) ==> Inv(r) && IsIdle(r)
    ensures r.events == st.events && r.currentDate == st.currentDate
  {
    st.(selectedDate := None, editingIndex := None, newEvent := EMPTY_FORM)
  }

  /**
   * When `handleSaveEvent` runs without throwing and stores only events: a
   * dialog is open; an edited index is on a day that has a list (otherwise
   * the write throws) and is at most the list's length (an index beyond it
   * would leave holes); and a repeating event's day reads back as a date.
   */
  predicate SaveDefined(st: State) {
    st.selectedDate.Some?
    && (st.editingIndex.Some? ==>
          st.selectedDate.value in st.events
          && st.editingIndex.value <= |st.events[st.selectedDate.value]|)
    && (st.newEvent.repeat != NoRepeat ==> ParseIsoKey(st.selectedDate.value).Some?)
  }

  /** The store `handleSaveEvent` builds: the form replaces the edited event or is appended to the day, then copied to each recurring day. */
  function SavedEvents(st: State): Store
    requires SaveDefined(st)
  {
    var key, e := st.selectedDate.value, st.newEvent;
    var placed :=
      if st.editingIndex.Some? then WriteAt(st.events, key, st.editingIndex.value, e)
      else Append(st.events, key, e);
    if e.repeat != NoRepeat then AppendEach(placed, RecurringKeys(ParseIsoKey(key).value, e.repeat), e)
    else placed
  }

  /** A form with an empty title or time is refused (the alert) and changes nothing. */
  predicate FormComplete(e: Event) {
    e.title != "" && e.time != ""
  }

  /** `handleSaveEvent`: refuse an incomplete form, otherwise store the event and reset the dialog. */
  function Save(st: State): (r: State)
    requires SaveDefined(st)
    ensures r.currentDate == st.currentDate
    ensures r == st || (IsIdle(r) && r.newEvent == EMPTY_FORM)
  {
    if !FormComplete(st.newEvent) then st
    else st.(events := SavedEvents(st), newEvent := EMPTY_FORM, selectedDate := None, editingIndex := None)
  }

  /**
   * When `handleDeleteEvent` runs without throwing: an edited index is on a
   * day that has a list; past the list's end the splice does nothing.
   */
  predicate DeleteDefined(st: State) {
    st.editingIndex.Some? ==> st.selectedDate.Some? && st.selectedDate.value in st.events
  }

  /** `handleDeleteEvent`: remove the edited event, if any, then reset the dialog. */
  function Delete(st: State): (r: State)
    requires DeleteDefined(st)
    ensures IsIdle(r) && r.newEvent == EMPTY_FORM && r.currentDate == st.currentDate
    ensures st.editingIndex.None? ==> r.events == st.events
  {
    var events :=
      if st.editingIndex.Some? then RemoveAt(st.events, st.selectedDate.value, st.editingIndex.value)
      else st.events;
    st.(events := events, newEvent := EMPTY_FORM, selectedDate := None, editingIndex := None)
  }

  /**
   * What the user can do. While the dialog is open its overlay takes the
   * clicks meant for the grid, but the two selectors stay reachable from the
   * keyboard.
   */
  datatype Action =
    | PickMonth(monthIndex: int)
    | PickYear(year: int)
    | ClickDay(day: int)
    | ClickEvent(day: int, index: nat)
    | TypeForm(form: Event)
    | PressCancel
    | PressSave
    | PressDelete

  /** Which actions the rendered page offers in a state. */
  predicate Enabled(st: State, a: Action)
    requires Inv(st)
  {
    var dim := DaysInMonth(st.currentDate.year, st.currentDate.month);
    match a
    case PickMonth(m) => 0 <= m < 12
    case PickYear(y) => FIRST_YEAR <= y <= LAST_YEAR
    case ClickDay(d) => st.selectedDate.None? && 1 <= d <= dim
    case ClickEvent(d, i) =>
      st.selectedDate.None? && 1 <= d <= dim && DayKey(st, d) in st.events && i < |st.events[DayKey(st, d)]|
    case TypeForm(_) => st.selectedDate.Some?
    case PressCancel => st.selectedDate.Some?
    case PressSave => st.selectedDate.Some?
    case PressDelete => st.selectedDate.Some? && st.editingIndex.Some?
  }

  /** The component's response to an action, with the Cancel button resetting the dialog. */
  function Step(st: State, a: Action): State
    requires Inv(st) && Enabled(st, a)
  {
    match a
    case PickMonth(m) => MonthChange(st, m)
    case PickYear(y) => YearChange(st, y)
    case ClickDay(d) => SelectDay(st, d)
    case ClickEvent(d, i) => SelectEvent(st, d, i)
    case TypeForm(e) => UpdateForm(st, e)
    case PressCancel => Cancel(st)
    case PressSave => Save(st)
    case PressDelete => Delete(st)
  }

  /** Mounting with a real date and a store with no empty lists starts in the invariant, with no dialog. */
  lemma InitInv(today: Date, stored: Store)
    requires ValidDate(today) && 1000 <= today.year <= 9999 && NoEmptyLists(stored)
    ensures Inv(Init(today, stored)) && IsIdle(Init(today, stored))
  {
  }

  /** Every action the page offers keeps the invariant. */
  lemma StepPreservesInv(st: State, a: Action)
    requires Inv(st) && Enabled(st, a)
    ensures Inv(Step(st, a))
  {
    var cur := st.currentDate;
    match a
    case PickMonth(m) =>
      MakeDateInMonth(cur.year, m, 1);
    case PickYear(y) =>
      MakeDateInMonth(y, cur.month - 1, 1);
    case ClickDay(d) =>
      GridKeyParses(Date(cur.year, cur.month, d));
    case ClickEvent(d, i) =>
      GridKeyParses(Date(cur.year, cur.month, d));
    case TypeForm(_) =>
    case PressCancel =>
    case PressSave =>
      SaveKeepsNoEmptyLists(st);
    case PressDelete =>
      RemoveAtNoEmptyLists(st.events, st.selectedDate.value, st.editingIndex.value);
  }

  lemma SaveKeepsNoEmptyLists(st: State)
    requires NoEmptyLists(st.events) && SaveDefined(st)
    ensures NoEmptyLists(Save(st).events)
  {
    if FormComplete(st.newEvent) {
      var key, e := st.selectedDate.value, st.newEvent;
      var placed :=
        if st.editingIndex.Some? then WriteAt(st.events, key, st.editingIndex.value, e)
        else Append(st.events, key, e);
      assert NoEmptyLists(placed);
      if e.repeat != NoRepeat {
        AppendEachNoEmptyLists(placed, RecurringKeys(ParseIsoKey(key).value, e.repeat), e);
      }
    }
  }

  /**
   * Save changes the state exactly when the form is complete, and then it
   * closes the dialog and empties the form.
   */
  lemma SaveOutcome(st: State)
    requires SaveDefined(st)
    ensures Save(st) == st <==> !FormComplete(st.newEvent)
    ensures FormComplete(st.newEvent) ==> IsIdle(Save(st)) && Save(st).newEvent == EMPTY_FORM
    ensures Save(st).currentDate == st.currentDate
  {
  }

  /**
   * The effect of saving a complete form on the dialog's own day: in "Add
   * Event" mode the event is appended to the day's list; in "Edit Event" mode
   * it takes the edited event's place and the list keeps its length. The
   * recurring copies never land on that day.
   */
  lemma SaveOnSelectedDay(st: State)
    requires Inv(st) && SaveDefined(st) && FormComplete(st.newEvent)
    ensures var key, r := st.selectedDate.value, Save(st).events;
      key in r
      && (IsAdding(st) ==> r[key] == ListAt(st.events, key) + [st.newEvent])
      && (IsEditing(st) ==> r[key] == st.events[key][st.editingIndex.value := st.newEvent]
                            && |r[key]| == |st.events[key]|)
  {
    var key, e := st.selectedDate.value, st.newEvent;
    var placed :=
      if st.editingIndex.Some? then WriteAt(st.events, key, st.editingIndex.value, e)
      else Append(st.events, key, e);
    if e.repeat != NoRepeat {
      var start := ParseIsoKey(key).value;
      ParseIsoKeyOnlyKeys(key);
      RecurringKeysDistinct(start, e.repeat);
      AppendEachEffect(placed, RecurringKeys(start, e.repeat), e);
    }
  }

  /**
   * A repeating event is also appended once to each of the twelve days the
   * expander lists, and every day that is neither the dialog's day nor one of
   * those twelve keeps its events.
   */
  lemma SaveRepeats(st: State)
    requires SaveDefined(st) && FormComplete(st.newEvent) && st.newEvent.repeat != NoRepeat
    ensures var key, e := st.selectedDate.value, st.newEvent;
      var keys, r := RecurringKeys(ParseIsoKey(key).value, e.repeat), Save(st).events;
      |keys| == OCCURRENCES
      && (forall k :: k in keys ==> k in r && r[k] == ListAt(st.events, k) + [e])
      && (forall k :: k !in keys && k != key ==> (k in r <==> k in st.events) && ListAt(r, k) == ListAt(st.events, k))
  {
    var key, e := st.selectedDate.value, st.newEvent;
    var start := ParseIsoKey(key).value;
    var placed :=
      if st.editingIndex.Some? then WriteAt(st.events, key, st.editingIndex.value, e)
      else Append(st.events, key, e);
    var keys := RecurringKeys(start, e.repeat);
    ParseIsoKeyOnlyKeys(key);
    RecurringKeysDistinct(start, e.repeat);
    if st.editingIndex.Some? {
      WriteAtEffect(st.events, key, st.editingIndex.value, e);
    }
    assert forall k :: k != key ==> (k in placed <==> k in st.events) && ListAt(placed, k) == ListAt(st.events, k);
    AppendEachEffect(placed, keys, e);
    assert Save(st).events == AppendEach(placed, keys, e);
  }

  /** Without a repeat, saving touches only the dialog's day. */
  lemma SaveOnceTouchesOneDay(st: State)
    requires SaveDefined(st) && st.newEvent.repeat == NoRepeat
    ensures forall k :: k != st.selectedDate.value ==>
      (k in Save(st).events <==> k in st.events) && ListAt(Save(st).events, k) == ListAt(st.events, k)
  {
  }

  /**
   * Delete closes the dialog; in "Edit Event" mode it removes the edited
   * event, keeps the day's other events in order, and drops the day when that
   * was its only event; no other day changes.
   */
  lemma DeleteEffect(st: State)
    requires Inv(st) && st.selectedDate.Some?
    ensures IsIdle(Delete(st)) && Delete(st).newEvent == EMPTY_FORM
    ensures IsAdding(st) ==> Delete(st).events == st.events
    ensures IsEditing(st) ==>
      var key, i, r := st.selectedDate.value, st.editingIndex.value, Delete(st).events;
      (key in r <==> |st.events[key]| > 1)
      && (key in r ==> r[key] == st.events[key][..i] + st.events[key][i + 1..])
      && (forall k :: k != key ==> (k in r <==> k in st.events) && ListAt(r, k) == ListAt(st.events, k))
  {
    if IsEditing(st) {
      RemoveAtEffect(st.events, st.selectedDate.value, st.editingIndex.value);
    }
  }

  /**
   * Opening an event that does not repeat and saving it unchanged leaves the
   * store as it was.
   */
  lemma ReopenAndSaveKeepsEvents(st: State, day: int, index: nat)
    requires Inv(st) && Enabled(st, ClickEvent(day, index))
    requires var e := st.events[DayKey(st, day)][index]; FormComplete(e) && e.repeat == NoRepeat
    ensures var reopened := SelectEvent(st, day, index);
      SaveDefined(reopened) && Save(reopened).events == st.events
  {
    var key := DayKey(st, day);
    var reopened := SelectEvent(st, day, index);
    assert st.events[key][index := st.events[key][index]] == st.events[key];
  }

  /**
   * The stale edit left by the Cancel button as written: open event `a` of
   * one day, cancel, open another day that holds `b`, fill the form with `c`
   * and save. The dialog still edits index 0, so `c` overwrites `b`; with the
   * resetting Cancel the same clicks append `c` after `b`.
   */
  lemma StaleEditOverwrites(a: Event, b: Event, c: Event)
    requires FormComplete(c) && c.repeat == NoRepeat
    ensures
      var k5, k6 := GridKey(2024, 1, 5), GridKey(2024, 1, 6);
      var s0 := Init(Date(2024, 1, 1), map[k5 := [a], k6 := [b]]);
      var s1 := SelectEvent(s0, 5, 0);
      var stale := SelectDay(CancelAsWritten(s1), 6);
      var reset := SelectDay(Cancel(s1), 6);
      !Inv(CancelAsWritten(s1)) && Inv(Cancel(s1))
      && IsEditing(stale) && IsAdding(reset)
      && Save(UpdateForm(stale, c)).events[k6] == [c]
      && Save(UpdateForm(reset, c)).events[k6] == [b, c]
  {
    var k5, k6 := GridKey(2024, 1, 5), GridKey(2024, 1, 6);
    GridKeyInjective(2024, 1, 5, 2024, 1, 6);
    var store := map[k5 := [a], k6 := [b]];
    var s1 := SelectEvent(Init(Date(2024, 1, 1), store), 5, 0);
    assert NoEmptyLists(store);
    assert Inv(Cancel(s1));
    var stale := SelectDay(CancelAsWritten(s1), 6);
    assert stale.events == store && stale.selectedDate == Some(k6) && stale.editingIndex == Some(0);
    assert Save(UpdateForm(stale, c)).events == WriteAt(store, k6, 0, c);
    var reset := SelectDay(Cancel(s1), 6);
    assert reset.events == store && reset.selectedDate == Some(k6) && reset.editingIndex == None;
    assert Save(UpdateForm(reset, c)).events == Append(store, k6, c);
  }

  /**
   * The stale edit at an index equal to the new day's length: open the second
   * of two events on one day, cancel as written, open a day holding one event
   * `b`. Saving `c` writes at index 1, which appends: the day holds `b, c`
   * although the dialog said "Edit Event"; Delete splices past the end and
   * leaves the store as it was.
   */
  lemma StaleIndexAtLength(a1: Event, a2: Event, b: Event, c: Event)
    requires FormComplete(c) && c.repeat == NoRepeat
    ensures
      var k5, k6 := GridKey(2024, 1, 5), GridKey(2024, 1, 6);
      var store := map[k6 := [b], k5 := [a1, a2]];
      var stale := SelectDay(CancelAsWritten(SelectEvent(Init(Date(2024, 1, 1), store), 5, 1)), 6);
      IsEditing(stale) && stale.editingIndex == Some(1)
      && SaveDefined(UpdateForm(stale, c)) && Save(UpdateForm(stale, c)).events[k6] == [b, c]
      && DeleteDefined(stale) && Delete(stale).events == store
  {
    var k5, k6 := GridKey(2024, 1, 5), GridKey(2024, 1, 6);
    GridKeyInjective(2024, 1, 5, 2024, 1, 6);
  }

  /**
   * The stale edit also reaches Delete: open event `a` of one day, cancel as
   * written, open another day holding `b1, b2`. The dialog offers Delete for
   * index 0, which removes `b1` although it was never opened; with the
   * resetting Cancel the same clicks open "Add Event" and Delete changes nothing.
   */
  lemma StaleEditDeletes(a: Event, b1: Event, b2: Event)
    ensures
      var k5, k6 := GridKey(2024, 1, 5), GridKey(2024, 1, 6);
      var store := map[k6 := [b1, b2], k5 := [a]];
      var s1 := SelectEvent(Init(Date(2024, 1, 1), store), 5, 0);
      var stale := SelectDay(CancelAsWritten(s1), 6);
      var reset := SelectDay(Cancel(s1), 6);
      IsEditing(stale) && DeleteDefined(stale) && ListAt(Delete(stale).events, k6) == [b2]
      && IsAdding(reset) && Delete(reset).events == store
  {
    var k5, k6 := GridKey(2024, 1, 5), GridKey(2024, 1, 6);
    GridKeyInjective(2024, 1, 5, 2024, 1, 6);
  }

  /** With the resetting Cancel, a click on a day after cancelling always opens an "Add Event" dialog. */
  lemma CancelThenClickAdds(st: State, day: int)
    requires Inv(st) && st.selectedDate.Some? && 1 <= day <= DaysInMonth(st.currentDate.year, st.currentDate.month)
    ensures var next := Step(Step(st, PressCancel), ClickDay(day));
      IsAdding(next) && next.newEvent == EMPTY_FORM && next.events == st.events
  {
    StepPreservesInv(st, PressCancel);
  }
}

=== FILE: date_keys.dfy ===
/**
 * The textual date keys under which the event store files its events.
 *
 * The month grid builds `${year}-${MM}-${DD}` with the month and the day
 * zero-padded to two digits; the recurrence expander builds keys with
 * `toISOString().split("T")[0]`, whose year is four digits (zero-padded) for
 * years 0 to 9999 and a sign and six digits otherwise; and `new Date(key)`
 * reads a `YYYY-MM-DD` key back. This module gives all three and shows
 * they agree on the years a calendar displays.
 */
module DateKeys {
  import opened Dates
  import opened Options

  predicate IsDigit(c: char) {
    '0' <= c <= '9'
  }

  predicate AllDigits(s: string) {
    forall i :: 0 <= i < |s| ==> IsDigit(s[i])
  }

  function DigitChar(n: int): (c: char)
    requires 0 <= n < 10
    ensures IsDigit(c) && c as int - '0' as int == n
  {
    ('0' as int + n) as char
  }

  function Pow10(k: nat): nat {
    if k == 0 then 1 else 10 * Pow10(k - 1)
  }

  /** `String(n)` for a natural number: its decimal digits, most significant first, no leading zero. */
  function Decimal(n: nat): (s: string)
    ensures 1 <= |s| && AllDigits(s)
  {
    if n < 10 then [DigitChar(n)] else Decimal(n / 10) + [DigitChar(n % 10)]
  }

  /** `String(n)` for any integer, as a template literal renders it. */
  function IntToString(n: int): string {
    if n < 0 then "-" + Decimal(-n) else Decimal(n)
  }

  function Zeros(k: nat): (z: string)
    ensures |z| == k && AllDigits(z)
  {
    seq(k, _ => '0')
  }

  /** `s.padStart(width, "0")`. */
  function PadStart(s: string, width: nat): string {
    if |s| >= width then s else Zeros(width - |s|) + s
  }

  /** `String(n).padStart(width, "0")`. */
  function Pad(n: nat, width: nat): (s: string)
    ensures AllDigits(s)
  {
    PadStart(Decimal(n), width)
  }

  /** The number a string of decimal digits denotes. */
  function DigitsValue(s: string): nat
    requires AllDigits(s)
  {
    if s == [] then 0 else 10 * DigitsValue(s[..|s| - 1]) + (s[|s| - 1] as int - '0' as int)
  }

  lemma {:induction false} DecimalValue(n: nat)
    ensures DigitsValue(Decimal(n)) == n
  {
    if n >= 10 {
      var s := Decimal(n / 10);
      DecimalValue(n / 10);
      assert (s + [DigitChar(n % 10)])[..|s|] == s;
    }
  }

  lemma {:induction false} ZerosValue(k: nat)
    ensures DigitsValue(Zeros(k)) == 0
  {
    if k > 0 {
      assert Zeros(k)[..k - 1] == Zeros(k - 1);
      ZerosValue(k - 1);
    }
  }

  lemma {:induction false} LeadingZerosValue(k: nat, s: string)
    requires AllDigits(s)
    ensures DigitsValue(Zeros(k) + s) == DigitsValue(s)
    decreases |s|
  {
    if s == [] {
      assert Zeros(k) + s == Zeros(k);
      ZerosValue(k);
    } else {
      var t := Zeros(k) + s;
      assert t[..|t| - 1] == Zeros(k) + s[..|s| - 1];
      LeadingZerosValue(k, s[..|s| - 1]);
    }
  }

  /** Zero-padding does not change the number a key field denotes. */
  lemma PadValue(n: nat, width: nat)
    ensures DigitsValue(Pad(n, width)) == n
  {
    DecimalValue(n);
    if |Decimal(n)| < width {
      LeadingZerosValue(width - |Decimal(n)|, Decimal(n));
    }
  }

  /** A number below 10^k has at most k digits, and exactly k when it is at least 10^(k-1). */
  lemma {:induction false} DecimalLength(n: nat, k: nat)
    requires 1 <= k && n < Pow10(k)
    ensures |Decimal(n)| <= k
    ensures Pow10(k - 1) <= n ==> |Decimal(n)| == k
  {
    if n >= 10 {
      assert k >= 2;
      DecimalLength(n / 10, k - 1);
    } else if k >= 2 {
      assert Pow10(k - 1) >= 10 by {
        Pow10AtLeastTen(k - 1);
      }
    }
  }

  lemma {:induction false} Pow10AtLeastTen(k: nat)
    requires 1 <= k
    ensures Pow10(k) >= 10
  {
    if k > 1 {
      Pow10AtLeastTen(k - 1);
    }
  }

  lemma DecimalAppend(v: nat, cv: nat)
    requires 1 <= v && cv < 10
    ensures Decimal(10 * v + cv) == Decimal(v) + [DigitChar(cv)]
  {
    assert (10 * v + cv) / 10 == v && (10 * v + cv) % 10 == cv;
  }

  lemma PadAppend(s: string, width: nat, c: char)
    requires |s| <= width
    ensures PadStart(s + [c], width + 1) == PadStart(s, width) + [c]
  {
    if |s| < width {
      assert Zeros(width + 1 - |s + [c]|) == Zeros(width - |s|);
    }
  }

  /**
   * Every string of digits is the zero-padded decimal form of its own value,
   * so reading a field and writing it back at the same width gives it back.
   */
  lemma {:induction false} PadOfValue(t: string)
    requires 1 <= |t| && AllDigits(t)
    ensures Pad(DigitsValue(t), |t|) == t
    decreases |t|
  {
    if |t| > 1 {
      var u, c := t[..|t| - 1], t[|t| - 1];
      assert t == u + [c];
      PadOfValue(u);
      if DigitsValue(u) == 0 {
        PadZeroStep(u, c);
      } else {
        PadNonZeroStep(u, c);
      }
    }
  }

  lemma DigitsValueAppend(u: string, c: char)
    requires AllDigits(u) && IsDigit(c)
    ensures AllDigits(u + [c]) && DigitsValue(u + [c]) == 10 * DigitsValue(u) + (c as int - '0' as int)
  {
    assert (u + [c])[..|u|] == u;
  }

  /** A digit after an all-zero field that reads as its value. */
  lemma PadZeroStep(u: string, c: char)
    requires 1 <= |u| && AllDigits(u) && IsDigit(c) && DigitsValue(u) == 0 && Pad(0, |u|) == u
    ensures Pad(DigitsValue(u + [c]), |u| + 1) == u + [c]
  {
    var cv := c as int - '0' as int;
    DigitsValueAppend(u, c);
    assert c == DigitChar(cv);
    ZeroPad(u);
  }

  /** A digit after a field with a non-zero value that reads as that value. */
  lemma PadNonZeroStep(u: string, c: char)
    requires 1 <= |u| && AllDigits(u) && IsDigit(c) && DigitsValue(u) != 0 && Pad(DigitsValue(u), |u|) == u
    ensures Pad(DigitsValue(u + [c]), |u| + 1) == u + [c]
  {
    var v, cv := DigitsValue(u), c as int - '0' as int;
    DigitsValueAppend(u, c);
    assert c == DigitChar(cv);
    DecimalAppend(v, cv);
    PadAppend(Decimal(v), |u|, c);
  }

  lemma ZeroPad(u: string)
    requires 1 <= |u| && Pad(0, |u|) == u
    ensures u == Zeros(|u|)
  {
    assert Decimal(0) == ['0'];
    assert Zeros(|u| - 1) + ['0'] == Zeros(|u|);
  }

  /** The shared shape of both key kinds: a year text, then `-MM-DD`. */
  function KeyOf(yearText: string, month: nat, day: nat): string {
    yearText + "-" + Pad(month, 2) + "-" + Pad(day, 2)
  }

  /** A month and a day below 100 take two characters each, so the separators sit at fixed places after the year. */
  lemma KeyOfShape(yearText: string, month: nat, day: nat)
    ensures month < 100 && day < 100 ==>
      |KeyOf(yearText, month, day)| == |yearText| + 6 && KeyOf(yearText, month, day)[..|yearText|] == yearText
      && KeyOf(yearText, month, day)[|yearText|] == '-' && KeyOf(yearText, month, day)[|yearText| + 3] == '-'
  {
    if month < 100 && day < 100 {
      assert Pow10(2) == 100;
      DecimalLength(month, 2);
      DecimalLength(day, 2);
    }
  }

  /** The key the month grid gives the cell of day `day` of month `month` (1-based) of `year`. */
  function GridKey(year: int, month: nat, day: nat): (k: string)
    ensures month < 100 && day < 100 ==>
      |k| == |IntToString(year)| + 6 && k[..|IntToString(year)|] == IntToString(year)
      && k[|k| - 6] == '-' && k[|k| - 3] == '-'
  {
    KeyOfShape(IntToString(year), month, day);
    KeyOf(IntToString(year), month, day)
  }

  /** The year part of `toISOString()`. */
  function IsoYear(y: int): (s: string)
    ensures 0 <= y <= 9999 ==> |s| == 4
  {
    if 0 <= y <= 9999 then
      assert Pow10(4) == 10000;
      DecimalLength(y, 4);
      Pad(y, 4)
    else (if y < 0 then "-" else "+") + Pad(if y < 0 then -y else y, 6)
  }

  /** `toISOString().split("T")[0]` of a date at midnight UTC. */
  function IsoKey(d: Date): (k: string)
    requires ValidDate(d)
    ensures 0 <= d.year <= 9999 ==> |k| == 10 && k[4] == '-' && k[7] == '-'
  {
    KeyOfShape(IsoYear(d.year), d.month, d.day);
    KeyOf(IsoYear(d.year), d.month, d.day)
  }

  /** `new Date(key)` for a key of the form `YYYY-MM-DD`; `None` is JavaScript's invalid date. */
  function ParseIsoKey(s: string): (r: Option<Date>)
    ensures r.Some? ==> |s| == 10 && ValidDate(r.value) && 0 <= r.value.year <= 9999
  {
    if |s| == 10 && s[4] == '-' && s[7] == '-'
       && AllDigits(s[..4]) && AllDigits(s[5..7]) && AllDigits(s[8..])
    then
      var d := Date(DigitsValue(s[..4]), DigitsValue(s[5..7]), DigitsValue(s[8..]));
      DigitsBelow(s[..4]);
      assert Pow10(4) == 10000;
      if ValidDate(d) then Some(d) else None
    else None
  }

  lemma TwoDigits(n: nat)
    requires n < 100
    ensures |Pad(n, 2)| == 2
  {
    DecimalLength(n, 2);
  }

  /** A key splits back into its year text, its month and its day. */
  lemma KeyOfInjective(t1: string, m1: nat, d1: nat, t2: string, m2: nat, d2: nat)
    requires m1 < 100 && d1 < 100 && m2 < 100 && d2 < 100
    ensures KeyOf(t1, m1, d1) == KeyOf(t2, m2, d2) <==> t1 == t2 && m1 == m2 && d1 == d2
  {
    TwoDigits(m1);
    TwoDigits(d1);
    TwoDigits(m2);
    TwoDigits(d2);
    var k1, k2 := KeyOf(t1, m1, d1), KeyOf(t2, m2, d2);
    if k1 == k2 {
      var n := |t1|;
      assert |t2| == n;
      assert t1 == k1[..n] && t2 == k2[..n];
      assert Pad(m1, 2) == k1[n + 1..n + 3] && Pad(m2, 2) == k2[n + 1..n + 3];
      assert Pad(d1, 2) == k1[n + 4..] && Pad(d2, 2) == k2[n + 4..];
      PadValue(m1, 2);
      PadValue(m2, 2);
      PadValue(d1, 2);
      PadValue(d2, 2);
    }
  }

  lemma IntToStringInjective(a: int, b: int)
    ensures IntToString(a) == IntToString(b) <==> a == b
  {
    DecimalValue(if a < 0 then -a else a);
    DecimalValue(if b < 0 then -b else b);
    var sa, sb := IntToString(a), IntToString(b);
    assert IsDigit(sa[0]) <==> a >= 0;
    assert IsDigit(sb[0]) <==> b >= 0;
    if a < 0 && b < 0 {
      assert sa[1..] == Decimal(-a) && sb[1..] == Decimal(-b);
    }
  }

  lemma IsoYearShape(y: int)
    ensures |IsoYear(y)| >= 1
    ensures IsDigit(IsoYear(y)[0]) <==> 0 <= y <= 9999
    ensures 0 <= y <= 9999 ==> DigitsValue(IsoYear(y)) == y
    ensures !(0 <= y <= 9999) ==>
      (IsoYear(y)[0] == '-' <==> y < 0) && DigitsValue(IsoYear(y)[1..]) == if y < 0 then -y else y
  {
    var abs := if y < 0 then -y else y;
    PadValue(abs, 4);
    PadValue(abs, 6);
    if !(0 <= y <= 9999) {
      assert IsoYear(y)[1..] == Pad(abs, 6);
    }
  }

  lemma IsoYearInjective(a: int, b: int)
    ensures IsoYear(a) == IsoYear(b) <==> a == b
  {
    IsoYearShape(a);
    IsoYearShape(b);
  }

  /** Distinct dates never share a `toISOString` key. */
  lemma IsoKeyInjective(a: Date, b: Date)
    requires ValidDate(a) && ValidDate(b)
    ensures IsoKey(a) == IsoKey(b) <==> a == b
  {
    KeyOfInjective(IsoYear(a.year), a.month, a.day, IsoYear(b.year), b.month, b.day);
    IsoYearInjective(a.year, b.year);
  }

  /** Distinct cells of the grid, in this month or any other, never share a key. */
  lemma GridKeyInjective(y1: int, m1: nat, d1: nat, y2: int, m2: nat, d2: nat)
    requires m1 < 100 && d1 < 100 && m2 < 100 && d2 < 100
    ensures GridKey(y1, m1, d1) == GridKey(y2, m2, d2) <==> y1 == y2 && m1 == m2 && d1 == d2
  {
    KeyOfInjective(IntToString(y1), m1, d1, IntToString(y2), m2, d2);
    IntToStringInjective(y1, y2);
  }

  /** For four-digit years the grid's key and the `toISOString` key coincide. */
  lemma GridKeyIsIsoKey(d: Date)
    requires ValidDate(d) && 1000 <= d.year <= 9999
    ensures GridKey(d.year, d.month, d.day) == IsoKey(d)
  {
    DecimalLength(d.year, 4);
  }

  /** Reading back the key of a date with a four-digit year gives the date. */
  lemma ParseIsoKeyRoundTrip(d: Date)
    requires ValidDate(d) && 0 <= d.year <= 9999
    ensures ParseIsoKey(IsoKey(d)) == Some(d)
  {
    DecimalLength(d.year, 4);
    TwoDigits(d.month);
    TwoDigits(d.day);
    PadValue(d.year, 4);
    PadValue(d.month, 2);
    PadValue(d.day, 2);
    var s := IsoKey(d);
    assert s[..4] == Pad(d.year, 4);
    assert s[5..7] == Pad(d.month, 2);
    assert s[8..] == Pad(d.day, 2);
  }

  /** Every key that reads back as a date is exactly that date's key: parsing loses nothing. */
  lemma ParseIsoKeyOnlyKeys(s: string)
    requires ParseIsoKey(s).Some?
    ensures var d := ParseIsoKey(s).value; 0 <= d.year <= 9999 && IsoKey(d) == s
  {
    var d := ParseIsoKey(s).value;
    PadOfValue(s[..4]);
    PadOfValue(s[5..7]);
    PadOfValue(s[8..]);
    DigitsBelow(s[..4]);
    assert Pow10(4) == 10000;
    assert s == s[..4] + "-" + s[5..7] + "-" + s[8..];
  }

  lemma {:induction false} DigitsBelow(t: string)
    requires AllDigits(t)
    ensures DigitsValue(t) < Pow10(|t|)
    decreases |t|
  {
    if t != [] {
      DigitsBelow(t[..|t| - 1]);
    }
  }

  /** The grid's key of a date with a four-digit year reads back as that date. */
  lemma GridKeyParses(d: Date)
    requires ValidDate(d) && 1000 <= d.year <= 9999
    ensures ParseIsoKey(GridKey(d.year, d.month, d.day)) == Some(d)
  {
    GridKeyIsIsoKey(d);
    ParseIsoKeyRoundTrip(d);
  }
}

=== FILE: dates.dfy ===
/**
 * Proleptic Gregorian calendar arithmetic as JavaScript's `Date` performs it
 * when the time zone is UTC: days in a month, the leap-year rule, the day
 * number since 1970-01-01 (ECMAScript's `Day(t)`), the weekday, and the
 * normalisation that `new Date(y, m, d)`, `setDate` and `setMonth` apply to
 * an out-of-range month or day.
 */
module Dates {

  /** A calendar date. `month` is 1-based (January is 1); JavaScript's month index is `month - 1`. */
  datatype Date = Date(year: int, month: int, day: int)

  /** The Gregorian leap-year rule. */
  predicate IsLeapYear(y: int) {
    y % 4 == 0 && (y % 100 != 0 || y % 400 == 0)
  }

  function DaysInMonth(y: int, m: int): (n: int)
    requires 1 <= m <= 12
    ensures 28 <= n <= 31
  {
    if m == 2 then (if IsLeapYear(y) then 29 else 28)
    else if m == 4 || m == 6 || m == 9 || m == 11 then 30
    else 31
  }

  predicate ValidDate(d: Date) {
    1 <= d.month <= 12 && 1 <= d.day <= DaysInMonth(d.year, d.month)
  }

  function DaysInYear(y: int): int {
    if IsLeapYear(y) then 366 else 365
  }

  /** Days from 1970-01-01 to the 1st of January of `y`, counted one year at a time. */
  function YearStart(y: int): int
    decreases if y >= 1970 then y - 1970 else 1970 - y
  {
    if y == 1970 then 0
    else if y > 1970 then YearStart(y - 1) + DaysInYear(y - 1)
    else YearStart(y + 1) - DaysInYear(y)
  }

  /** Days from the 1st of January of `y` to the 1st of month `m`; `m == 13` is the next 1st of January. */
  function DaysBeforeMonth(y: int, m: int): int
    requires 1 <= m <= 13
  {
    var common :=
      if m <= 6 then
        (if m == 1 then 0 else if m == 2 then 31 else if m == 3 then 59
         else if m == 4 then 90 else if m == 5 then 120 else 151)
      else
        (if m == 7 then 181 else if m == 8 then 212 else if m == 9 then 243
         else if m == 10 then 273 else if m == 11 then 304 else if m == 12 then 334 else 365);
    if m > 2 && IsLeapYear(y) then common + 1 else common
  }

  /** ECMAScript's `Day(t)`: the number of days from 1970-01-01 to `d`. */
  function DayNumber(d: Date): int
    requires 1 <= d.month <= 12
  {
    YearStart(d.year) + DaysBeforeMonth(d.year, d.month) + d.day - 1
  }

  /** ECMAScript's `WeekDay(t)`: Sunday is 0, Saturday is 6; 1970-01-01 was a Thursday. */
  function Weekday(d: Date): (w: int)
    requires 1 <= d.month <= 12
    ensures 0 <= w < 7
  {
    (DayNumber(d) + 4) % 7
  }

  /** The month after (y, m), carrying into the next year after December. */
  function NextMonth(y: int, m: int): (ym: (int, int))
    requires 1 <= m <= 12
    ensures 1 <= ym.1 <= 12
    ensures ym == (if m == 12 then (y + 1, 1) else (y, m + 1))
  {
    if m == 12 then (y + 1, 1) else (y, m + 1)
  }

  /** The month before (y, m), borrowing from the previous year before January. */
  function PrevMonth(y: int, m: int): (ym: (int, int))
    requires 1 <= m <= 12
    ensures 1 <= ym.1 <= 12
    ensures NextMonth(ym.0, ym.1) == (y, m)
  {
    if m == 1 then (y - 1, 12) else (y, m - 1)
  }

  lemma YearLength(y: int)
    ensures YearStart(y + 1) == YearStart(y) + DaysInYear(y)
  {
  }

  /**
   * The year-by-year count agrees with ECMAScript's closed form `DayFromYear(y)`:
   * 365 days a year plus one for each leap year between 1970 and `y`.
   */
  lemma {:induction false} YearStartIsDayFromYear(y: int)
    ensures YearStart(y) == 365 * (y - 1970) + (y - 1969) / 4 - (y - 1901) / 100 + (y - 1601) / 400
    decreases if y >= 1970 then y - 1970 else 1970 - y
  {
    if y > 1970 {
      YearStartIsDayFromYear(y - 1);
      LeapStep(y - 1);
    } else if y < 1970 {
      YearStartIsDayFromYear(y + 1);
      LeapStep(y);
    }
  }

  /** How the closed form grows from year `y` to year `y + 1`. */
  lemma LeapStep(y: int)
    ensures (y + 1 - 1969) / 4 - (y + 1 - 1901) / 100 + (y + 1 - 1601) / 400
         == (y - 1969) / 4 - (y - 1901) / 100 + (y - 1601) / 400 + DaysInYear(y) - 365
  {
    assert (y - 1968) / 4 == (y - 1969) / 4 + (if y % 4 == 0 then 1 else 0);
    assert (y - 1900) / 100 == (y - 1901) / 100 + (if y % 100 == 0 then 1 else 0);
    assert (y - 1600) / 400 == (y - 1601) / 400 + (if y % 400 == 0 then 1 else 0);
    if y % 400 == 0 {
      assert y % 100 == 0;
    }
    if y % 100 == 0 {
      assert y % 4 == 0;
    }
  }

  lemma MonthLength(y: int, m: int)
    requires 1 <= m <= 12
    ensures DaysBeforeMonth(y, m + 1) == DaysBeforeMonth(y, m) + DaysInMonth(y, m)
    ensures DaysBeforeMonth(y, 13) == DaysInYear(y)
  {
  }

  /** The 1st of the next month comes exactly `DaysInMonth(y, m)` days after the 1st of this one. */
  lemma FirstOfNextMonth(y: int, m: int)
    requires 1 <= m <= 12
    ensures var (ny, nm) := NextMonth(y, m);
      DayNumber(Date(ny, nm, 1)) == DayNumber(Date(y, m, 1)) + DaysInMonth(y, m)
  {
    MonthLength(y, m);
    if m == 12 {
      YearLength(y);
    }
  }

  /**
   * The date JavaScript builds from year `y`, month `m` (1-based here) and a
   * day-of-month `day` that may lie outside the month: surplus days spill into
   * the following months, and day 0 or less reaches back into earlier months.
   */
  function Normalize(y: int, m: int, day: int): (r: Date)
    requires 1 <= m <= 12
    ensures ValidDate(r)
    decreases if day < 1 then 1 else 0, if day < 1 then -day else day
  {
    if day < 1 then
      var (py, pm) := PrevMonth(y, m);
      Normalize(py, pm, day + DaysInMonth(py, pm))
    else if day > DaysInMonth(y, m) then
      var (ny, nm) := NextMonth(y, m);
      Normalize(ny, nm, day - DaysInMonth(y, m))
    else
      Date(y, m, day)
  }

  /** Normalising is ECMAScript's `MakeDay`: the 1st of (y, m) plus `day - 1` days. */
  lemma {:induction false} NormalizeDayNumber(y: int, m: int, day: int)
    requires 1 <= m <= 12
    ensures DayNumber(Normalize(y, m, day)) == DayNumber(Date(y, m, 1)) + day - 1
    decreases if day < 1 then 1 else 0, if day < 1 then -day else day
  {
    if day < 1 {
      var (py, pm) := PrevMonth(y, m);
      FirstOfNextMonth(py, pm);
      NormalizeDayNumber(py, pm, day + DaysInMonth(py, pm));
    } else if day > DaysInMonth(y, m) {
      var (ny, nm) := NextMonth(y, m);
      FirstOfNextMonth(y, m);
      NormalizeDayNumber(ny, nm, day - DaysInMonth(y, m));
    }
  }

  /**
   * `new Date(year, monthIndex, day)`, and equally `setDate`/`setMonth` on a
   * date: the 0-based month index carries whole years first, then the day
   * overflows or underflows as `Normalize` says.
   */
  function MakeDate(year: int, monthIndex: int, day: int): (r: Date)
    ensures ValidDate(r)
  {
    Normalize(year + monthIndex / 12, monthIndex % 12 + 1, day)
  }

  /** Chronological order of dates. */
  predicate Before(a: Date, b: Date) {
    a.year < b.year || (a.year == b.year && (a.month < b.month || (a.month == b.month && a.day < b.day)))
  }

  lemma {:induction false} YearsApart(y1: int, y2: int)
    requires y1 < y2
    ensures YearStart(y1) + DaysInYear(y1) <= YearStart(y2)
    decreases y2 - y1
  {
    YearLength(y1);
    if y1 + 1 < y2 {
      YearsApart(y1 + 1, y2);
    }
  }

  lemma DayOfYearBounds(d: Date)
    requires ValidDate(d)
    ensures 0 <= DaysBeforeMonth(d.year, d.month) + d.day - 1 < DaysInYear(d.year)
  {
    MonthLength(d.year, d.month);
  }

  /** Day numbers order valid dates exactly as the calendar does, so a date is determined by its day number. */
  lemma DayNumberOrder(a: Date, b: Date)
    requires ValidDate(a) && ValidDate(b)
    ensures Before(a, b) <==> DayNumber(a) < DayNumber(b)
    ensures a == b <==> DayNumber(a) == DayNumber(b)
  {
    DayOfYearBounds(a);
    DayOfYearBounds(b);
    if a.year < b.year {
      YearsApart(a.year, b.year);
    } else if b.year < a.year {
      YearsApart(b.year, a.year);
    } else if a.month < b.month {
      MonthLength(a.year, a.month);
    } else if b.month < a.month {
      MonthLength(b.year, b.month);
    }
  }

  /** "Day 0 of the next month" is the last day of this month (the grid's `lastDay`). */
  lemma LastDayOfMonth(y: int, monthIndex: int)
    requires 0 <= monthIndex < 12
    ensures MakeDate(y, monthIndex + 1, 0) == Date(y, monthIndex + 1, DaysInMonth(y, monthIndex + 1))
  {
    var m := monthIndex + 1;
    var (ny, nm) := NextMonth(y, m);
    assert (ny, nm) == (y + (monthIndex + 1) / 12, (monthIndex + 1) % 12 + 1);
    assert PrevMonth(ny, nm) == (y, m);
    var r := Normalize(ny, nm, 0);
    assert r == Normalize(y, m, DaysInMonth(y, m));
  }

  /** `new Date(y, monthIndex, day)` with a day inside the month is that very date; the 1st in particular. */
  lemma MakeDateInMonth(y: int, monthIndex: int, day: int)
    requires 0 <= monthIndex < 12 && 1 <= day <= DaysInMonth(y, monthIndex + 1)
    ensures MakeDate(y, monthIndex, day) == Date(y, monthIndex + 1, day)
  {
  }

  /** Day `d` of a month falls `d - 1` weekdays after the month's 1st. */
  lemma WeekdayInMonth(y: int, m: int, d: int)
    requires 1 <= m <= 12
    ensures Weekday(Date(y, m, d)) == (Weekday(Date(y, m, 1)) + d - 1) % 7
  {
    var n := DayNumber(Date(y, m, 1)) + 4;
    var q, r := n / 7, n % 7;
    assert DayNumber(Date(y, m, d)) + 4 == 7 * q + r + d - 1;
    assert (7 * q + (r + d - 1)) % 7 == (r + d - 1) % 7;
  }

  /** A concrete check of the day numbering: 2024-01-01 was a Monday. */
  lemma NewYear2024IsMonday()
    ensures Weekday(Date(2024, 1, 1)) == 1
  {
    YearStartIsDayFromYear(2024);
    assert YearStart(2024) == 19723;
    assert DayNumber(Date(2024, 1, 1)) == 19723;
  }
}

=== FILE: event_store.dfy ===
/**
 * The event store: a map from a day's key to the ordered list of the events
 * on that day, and the updates the save and delete handlers make to it.
 */
module EventStore {
  import opened Recurrence

  /** An event as the form edits it; it has no identity other than its position in its day's list. */
  datatype Event = Event(title: string, time: string, color: string, repeat: Repeat)

  type Store = map<string, seq<Event>>

  /** The store's invariant: no key is kept with an empty list. */
  predicate NoEmptyLists(s: Store) {
    forall k :: k in s ==> s[k] != []
  }

  /** `store[key] || []`: the events on a day, none when the day has no entry. */
  function ListAt(s: Store, key: string): seq<Event> {
    if key in s then s[key] else []
  }

  /** `store[key] = [...(store[key] || []), e]`. */
  function Append(s: Store, key: string, e: Event): Store {
    s[key := ListAt(s, key) + [e]]
  }

  /** The `forEach` over the expanded dates: `Append` for each key in turn, first key first. */
  function AppendEach(s: Store, keys: seq<string>, e: Event): Store
    decreases |keys|
  {
    if keys == [] then s else Append(AppendEach(s, keys[..|keys| - 1], e), keys[|keys| - 1], e)
  }

  /**
   * `store[key][index] = e` on an existing list: the event at `index` is
   * replaced, and an index equal to the list's length appends.
   */
  function WriteAt(s: Store, key: string, index: nat, e: Event): Store
    requires key in s && index <= |s[key]|
  {
    if index < |s[key]| then s[key := s[key][index := e]] else s[key := s[key] + [e]]
  }

  /**
   * `store[key].splice(index, 1)`, which does nothing when `index` is past
   * the end, then `delete store[key]` when the list is empty.
   */
  function RemoveAt(s: Store, key: string, index: nat): Store
    requires key in s
  {
    var rest := if index < |s[key]| then s[key][..index] + s[key][index + 1..] else s[key];
    if rest == [] then s - {key} else s[key := rest]
  }

  predicate Distinct(keys: seq<string>) {
    forall i, j :: 0 <= i < j < |keys| ==> keys[i] != keys[j]
  }

  /**
   * Appending one event under each of a list of distinct keys appends it
   * exactly once at the end of each of their lists, and leaves every other
   * key as it was.
   */
  lemma {:induction false} AppendEachEffect(s: Store, keys: seq<string>, e: Event)
    requires Distinct(keys)
    ensures forall k :: k in keys ==> k in AppendEach(s, keys, e) && AppendEach(s, keys, e)[k] == ListAt(s, k) + [e]
    ensures forall k :: k !in keys ==> (k in AppendEach(s, keys, e) <==> k in s) && ListAt(AppendEach(s, keys, e), k) == ListAt(s, k)
    decreases |keys|
  {
    if keys != [] {
      var init, last := keys[..|keys| - 1], keys[|keys| - 1];
      assert Distinct(init);
      AppendEachEffect(s, init, e);
      assert forall k :: k in keys <==> k in init || k == last;
      assert last !in init by {
        forall i | 0 <= i < |init| ensures init[i] != last {
          assert keys[i] != keys[|keys| - 1];
        }
      }
    }
  }

  /** Appending under any keys, repeated or not, keeps every list non-empty. */
  lemma {:induction false} AppendEachNoEmptyLists(s: Store, keys: seq<string>, e: Event)
    requires NoEmptyLists(s)
    ensures NoEmptyLists(AppendEach(s, keys, e))
    decreases |keys|
  {
    if keys != [] {
      AppendEachNoEmptyLists(s, keys[..|keys| - 1], e);
    }
  }

  /**
   * Removing an event keeps the others in their order and drops the day
   * exactly when it was the day's only event; other days do not change.
   */
  lemma RemoveAtEffect(s: Store, key: string, index: nat)
    requires key in s && index < |s[key]|
    ensures var r := RemoveAt(s, key, index);
      (key in r <==> |s[key]| > 1)
      && (key in r ==> r[key] == s[key][..index] + s[key][index + 1..] && |r[key]| == |s[key]| - 1)
      && (forall k :: k != key ==> (k in r <==> k in s) && ListAt(r, k) == ListAt(s, k))
  {
  }

  /** Splicing past the end of a non-empty list changes nothing. */
  lemma RemoveAtPastEnd(s: Store, key: string, index: nat)
    requires key in s && s[key] != [] && |s[key]| <= index
    ensures RemoveAt(s, key, index) == s
  {
  }

  /**
   * Writing at an index inside the list replaces that one event and keeps
   * the length; writing at the length appends; no other day changes.
   */
  lemma WriteAtEffect(s: Store, key: string, index: nat, e: Event)
    requires key in s && index <= |s[key]|
    ensures var r := WriteAt(s, key, index, e);
      key in r && |r[key]| == |s[key]| + (if index < |s[key]| then 0 else 1)
      && (index < |s[key]| ==> r[key] == s[key][index := e])
      && (index == |s[key]| ==> r[key] == s[key] + [e])
      && (forall k :: k != key ==> (k in r <==> k in s) && ListAt(r, k) == ListAt(s, k))
  {
  }

  /** Removing an event, or splicing past the end, keeps every list non-empty. */
  lemma RemoveAtNoEmptyLists(s: Store, key: string, index: nat)
    requires NoEmptyLists(s) && key in s
    ensures NoEmptyLists(RemoveAt(s, key, index))
  {
  }
}

=== FILE: options.dfy ===
/** The optional value used for JavaScript's `null` and for a parse that fails. */
module Options {

  datatype Option<T> = None | Some(value: T)
}

=== FILE: recurrence.dfy ===
/**
 * The recurrence expander: from the key of the day an event is saved on and
 * the event's repeat setting, the keys of the twelve later days the event is
 * copied onto.
 */
module Recurrence {
  import opened Dates
  import opened DateKeys
  import opened Options

  /** The four settings of the repeat selector. */
  datatype Repeat = NoRepeat | Daily | Weekly | Monthly

  /** How many occurrences one expansion produces. */
  const OCCURRENCES := 12

  /**
   * Occurrence `i` of a repeat starting on `start`: a copy of `start` with
   * `setDate(getDate() + i)`, `setDate(getDate() + i * 7)` or
   * `setMonth(getMonth() + i)` applied, or `start` itself when no setter
   * applies.
   */
  function RecurringDate(start: Date, repeat: Repeat, i: int): (r: Date)
    requires ValidDate(start)
    ensures ValidDate(r)
  {
    var monthIndex := start.month - 1;
    match repeat
    case NoRepeat => start
    case Daily => MakeDate(start.year, monthIndex, start.day + i)
    case Weekly => MakeDate(start.year, monthIndex, start.day + i * 7)
    case Monthly => MakeDate(start.year, monthIndex + i, start.day)
  }

  /** Occurrences 1 to `n` of a repeat, occurrence 1 first. */
  function Occurrences(start: Date, repeat: Repeat, n: nat): (ds: seq<Date>)
    requires ValidDate(start)
    ensures |ds| == n && forall k :: 0 <= k < n ==> ValidDate(ds[k])
  {
    if n == 0 then [] else Occurrences(start, repeat, n - 1) + [RecurringDate(start, repeat, n)]
  }

  /** Position `k` of the list is occurrence `k + 1`. */
  lemma {:induction false} OccurrencesAt(start: Date, repeat: Repeat, n: nat, k: int)
    requires ValidDate(start) && 0 <= k < n
    ensures Occurrences(start, repeat, n)[k] == RecurringDate(start, repeat, k + 1)
  {
    if k < n - 1 {
      OccurrencesAt(start, repeat, n - 1, k);
    }
  }

  /** The keys of a list of dates, in the same order. */
  function KeysOf(ds: seq<Date>): (keys: seq<string>)
    requires forall k :: 0 <= k < |ds| ==> ValidDate(ds[k])
    ensures |keys| == |ds|
    decreases |ds|
  {
    if ds == [] then [] else KeysOf(ds[..|ds| - 1]) + [IsoKey(ds[|ds| - 1])]
  }

  /** Position `k` of the keys is the key of date `k`. */
  lemma {:induction false} KeysOfAt(ds: seq<Date>, k: int)
    requires (forall i :: 0 <= i < |ds| ==> ValidDate(ds[i])) && 0 <= k < |ds|
    ensures KeysOf(ds)[k] == IsoKey(ds[k])
    decreases |ds|
  {
    if k < |ds| - 1 {
      var init := ds[..|ds| - 1];
      KeysOfAt(init, k);
      assert init[k] == ds[k];
    }
  }

  /** The keys the expander returns for a start key that parses. */
  function RecurringKeys(start: Date, repeat: Repeat): seq<string>
    requires ValidDate(start)
  {
    KeysOf(Occurrences(start, repeat, OCCURRENCES))
  }

  /** Twelve keys, each the key of its occurrence, are the expander's keys. */
  lemma RecurringKeysPointwise(start: Date, repeat: Repeat, keys: seq<string>)
    requires ValidDate(start) && |keys| == OCCURRENCES
    requires forall k :: 0 <= k < OCCURRENCES ==> keys[k] == IsoKey(RecurringDate(start, repeat, k + 1))
    ensures keys == RecurringKeys(start, repeat)
  {
    var ds := Occurrences(start, repeat, OCCURRENCES);
    forall k | 0 <= k < OCCURRENCES
      ensures keys[k] == RecurringKeys(start, repeat)[k]
    {
      KeysOfAt(ds, k);
      OccurrencesAt(start, repeat, OCCURRENCES, k);
    }
  }

  /**
   * `generateRecurringDates`: reads the start date from its key, then
   * expands it.
   */
  method GenerateRecurringDates(startDate: string, repeat: Repeat) returns (dates: seq<string>)
    requires ParseIsoKey(startDate).Some?
    ensures dates == RecurringKeys(ParseIsoKey(startDate).value, repeat)
  {
    var start := ParseIsoKey(startDate).value;
    dates := ExpandOccurrences(start, repeat);
  }

  /**
   * The expander's loop: for i = 1 to 12 it clones the start date, applies
   * the setter the repeat setting selects and pushes the clone's key.
   */
  method ExpandOccurrences(start: Date, repeat: Repeat) returns (dates: seq<string>)
    requires ValidDate(start)
    ensures dates == RecurringKeys(start, repeat)
  {
    dates := [];
    ghost var occurrences: seq<Date> := [];
    var i := 1;
    while i <= OCCURRENCES
      invariant 1 <= i <= OCCURRENCES + 1
      invariant |dates| == i - 1 && |occurrences| == i - 1
      invariant forall k :: 0 <= k < i - 1 ==> occurrences[k] == RecurringDate(start, repeat, k + 1)
      invariant forall k :: 0 <= k < i - 1 ==> ValidDate(occurrences[k]) && dates[k] == IsoKey(occurrences[k])
    {
      var newDate := Occurrence(start, repeat, i);
      occurrences := occurrences + [newDate];
      dates := dates + [IsoKey(newDate)];
      i := i + 1;
    }
    RecurringKeysPointwise(start, repeat, dates);
  }

  /** One turn of the expander's loop: a copy of the start with the setter the repeat setting selects applied. */
  method Occurrence(start: Date, repeat: Repeat, i: int) returns (newDate: Date)
    requires ValidDate(start)
    ensures newDate == RecurringDate(start, repeat, i)
  {
    newDate := start;
    if repeat == Daily {
      newDate := MakeDate(newDate.year, newDate.month - 1, newDate.day + i);
    }
    if repeat == Weekly {
      newDate := MakeDate(newDate.year, newDate.month - 1, newDate.day + i * 7);
    }
    if repeat == Monthly {
      newDate := MakeDate(newDate.year, newDate.month - 1 + i, newDate.day);
    }
  }

  /** The 0-based month index of a date carries no year. */
  lemma SameMonth(start: Date)
    requires 1 <= start.month <= 12
    ensures (start.month - 1) / 12 == 0 && (start.month - 1) % 12 + 1 == start.month
  {
  }

  /** Daily occurrence `i` is the date exactly `i` days after the start. */
  lemma DailyStep(start: Date, i: int)
    requires ValidDate(start)
    ensures DayNumber(RecurringDate(start, Daily, i)) == DayNumber(start) + i
  {
    SameMonth(start);
    NormalizeDayNumber(start.year, start.month, start.day + i);
  }

  /** Weekly occurrence `i` is exactly `7 * i` days after the start, on the same weekday. */
  lemma WeeklyStep(start: Date, i: int)
    requires ValidDate(start)
    ensures DayNumber(RecurringDate(start, Weekly, i)) == DayNumber(start) + 7 * i
    ensures Weekday(RecurringDate(start, Weekly, i)) == Weekday(start)
  {
    SameMonth(start);
    NormalizeDayNumber(start.year, start.month, start.day + i * 7);
    var n := DayNumber(start) + 4;
    assert DayNumber(RecurringDate(start, Weekly, i)) + 4 == n + 7 * i;
    WholeWeeks(n, i);
  }

  lemma WholeWeeks(n: int, i: int)
    ensures (n + 7 * i) % 7 == n % 7
  {
    var q, r := n / 7, n % 7;
    assert n + 7 * i == 7 * (q + i) + r;
  }

  /** A daily step that stays inside the month only moves the day of the month. */
  lemma DailyWithinMonth(start: Date, i: nat)
    requires ValidDate(start) && start.day + i <= DaysInMonth(start.year, start.month)
    ensures RecurringDate(start, Daily, i) == Date(start.year, start.month, start.day + i)
  {
    SameMonth(start);
    var r := RecurringDate(start, Daily, i);
    DailyStep(start, i);
    DayNumberOrder(r, Date(start.year, start.month, start.day + i));
  }

  /** A daily step from the last day of a month lands on the 1st of the next month, carrying the year after December. */
  lemma DailyRollover(start: Date)
    requires ValidDate(start) && start.day == DaysInMonth(start.year, start.month)
    ensures var (ny, nm) := NextMonth(start.year, start.month);
      RecurringDate(start, Daily, 1) == Date(ny, nm, 1)
  {
    SameMonth(start);
    var (ny, nm) := NextMonth(start.year, start.month);
    FirstOfNextMonth(start.year, start.month);
    DailyStep(start, 1);
    DayNumberOrder(RecurringDate(start, Daily, 1), Date(ny, nm, 1));
  }

  /** The month `k` months after (y, m), counted from (y, m) itself. */
  function MonthsLater(y: int, m: int, k: int): (ym: (int, int))
    requires 1 <= m <= 12
    ensures 1 <= ym.1 <= 12
    ensures 12 * ym.0 + ym.1 == 12 * y + m + k
  {
    (y + (m - 1 + k) / 12, (m - 1 + k) % 12 + 1)
  }

  /**
   * Monthly occurrence `i` keeps the day of the month in the month `i`
   * months later; when that month is too short, the surplus days spill
   * into the month after it.
   */
  lemma MonthlyStep(start: Date, i: int)
    requires ValidDate(start)
    ensures var (ty, tm) := MonthsLater(start.year, start.month, i);
      var dim := DaysInMonth(ty, tm);
      var (ny, nm) := NextMonth(ty, tm);
      RecurringDate(start, Monthly, i)
        == if start.day <= dim then Date(ty, tm, start.day) else Date(ny, nm, start.day - dim)
  {
    var (ty, tm) := MonthsLater(start.year, start.month, i);
    assert RecurringDate(start, Monthly, i) == Normalize(ty, tm, start.day);
    var dim := DaysInMonth(ty, tm);
    if start.day > dim {
      var (ny, nm) := NextMonth(ty, tm);
      assert start.day - dim <= 3 < DaysInMonth(ny, nm);
      assert Normalize(ty, tm, start.day) == Normalize(ny, nm, start.day - dim);
      assert Normalize(ny, nm, start.day - dim) == Date(ny, nm, start.day - dim);
    }
  }

  /** JavaScript's month-end overflow: one month after 2023-01-31 is 2023-03-03, and in a leap year it is 2024-03-02. */
  lemma MonthlyOverflowExample()
    ensures RecurringDate(Date(2023, 1, 31), Monthly, 1) == Date(2023, 3, 3)
    ensures RecurringDate(Date(2024, 1, 31), Monthly, 1) == Date(2024, 3, 2)
  {
    assert RecurringDate(Date(2023, 1, 31), Monthly, 1) == Normalize(2023, 2, 31);
    assert Normalize(2023, 2, 31) == Normalize(2023, 3, 3);
    assert RecurringDate(Date(2024, 1, 31), Monthly, 1) == Normalize(2024, 2, 31);
    assert Normalize(2024, 2, 31) == Normalize(2024, 3, 2);
  }

  /** A daily event saved on 2024-01-31 recurs on 2024-02-01 to 2024-02-12. */
  lemma DailyRolloverExample(i: int)
    requires 1 <= i <= OCCURRENCES
    ensures RecurringDate(Date(2024, 1, 31), Daily, i) == Date(2024, 2, i)
  {
    DailyStep(Date(2024, 1, 31), i);
    DayNumberOrder(RecurringDate(Date(2024, 1, 31), Daily, i), Date(2024, 2, i));
  }

  /** The 1st of a month that comes `k2 - k1` months later has a larger day number. */
  lemma {:induction false} FirstOfLaterMonth(y: int, m: int, k1: int, k2: int)
    requires 1 <= m <= 12 && k1 < k2
    ensures var (y1, m1) := MonthsLater(y, m, k1);
      var (y2, m2) := MonthsLater(y, m, k2);
      DayNumber(Date(y1, m1, 1)) + DaysInMonth(y1, m1) <= DayNumber(Date(y2, m2, 1))
    decreases k2 - k1
  {
    var (y1, m1) := MonthsLater(y, m, k1);
    FirstOfNextMonth(y1, m1);
    assert NextMonth(y1, m1) == MonthsLater(y, m, k1 + 1);
    if k1 + 1 < k2 {
      FirstOfLaterMonth(y, m, k1 + 1, k2);
      var (y3, m3) := MonthsLater(y, m, k1 + 1);
      assert DaysInMonth(y3, m3) > 0;
    }
  }

  /** Occurrence 0 of any repeat is the start itself. */
  lemma OccurrenceZero(start: Date, repeat: Repeat)
    requires ValidDate(start)
    ensures RecurringDate(start, repeat, 0) == start
  {
    SameMonth(start);
  }

  /** Monthly occurrence `i` is as many days into its month as the start is into the start's month. */
  lemma MonthlyDayNumber(start: Date, i: int)
    requires ValidDate(start)
    ensures var (ty, tm) := MonthsLater(start.year, start.month, i);
      DayNumber(RecurringDate(start, Monthly, i)) == DayNumber(Date(ty, tm, 1)) + start.day - 1
  {
    var (ty, tm) := MonthsLater(start.year, start.month, i);
    assert RecurringDate(start, Monthly, i) == Normalize(ty, tm, start.day);
    NormalizeDayNumber(ty, tm, start.day);
  }

  /**
   * Daily, weekly and monthly occurrences move strictly forward in time:
   * every occurrence lies after the start, and a later occurrence lies after
   * an earlier one.
   */
  lemma RecurringIncreasing(start: Date, repeat: Repeat, i: int, j: int)
    requires ValidDate(start) && repeat != NoRepeat && 0 <= i < j
    ensures Before(RecurringDate(start, repeat, i), RecurringDate(start, repeat, j))
    ensures i == 0 ==> Before(start, RecurringDate(start, repeat, j))
  {
    var a, b := RecurringDate(start, repeat, i), RecurringDate(start, repeat, j);
    if repeat == Daily {
      DailyStep(start, i);
      DailyStep(start, j);
    } else if repeat == Weekly {
      WeeklyStep(start, i);
      WeeklyStep(start, j);
    } else {
      MonthlyDayNumber(start, i);
      MonthlyDayNumber(start, j);
      FirstOfLaterMonth(start.year, start.month, i, j);
    }
    DayNumberOrder(a, b);
    OccurrenceZero(start, repeat);
  }

  /** Occurrences come in strictly increasing order. */
  lemma OccurrencesIncreasing(start: Date, repeat: Repeat, n: nat)
    requires ValidDate(start) && repeat != NoRepeat
    ensures forall i, j :: 0 <= i < j < n ==> Before(Occurrences(start, repeat, n)[i], Occurrences(start, repeat, n)[j])
  {
    var ds := Occurrences(start, repeat, n);
    forall i, j | 0 <= i < j < n
      ensures Before(ds[i], ds[j])
    {
      OccurrencesAt(start, repeat, n, i);
      OccurrencesAt(start, repeat, n, j);
      RecurringIncreasing(start, repeat, i + 1, j + 1);
    }
  }

  /** Every occurrence comes after the start. */
  lemma OccurrencesAfterStart(start: Date, repeat: Repeat, n: nat)
    requires ValidDate(start) && repeat != NoRepeat
    ensures forall j :: 0 <= j < n ==> Before(start, Occurrences(start, repeat, n)[j])
  {
    var ds := Occurrences(start, repeat, n);
    forall j | 0 <= j < n
      ensures Before(start, ds[j])
    {
      OccurrencesAt(start, repeat, n, j);
      RecurringIncreasing(start, repeat, 0, j + 1);
    }
  }

  /** Valid dates in strictly increasing order have pairwise distinct keys. */
  lemma IncreasingKeysDistinct(ds: seq<Date>)
    requires forall k :: 0 <= k < |ds| ==> ValidDate(ds[k])
    requires forall i, j :: 0 <= i < j < |ds| ==> Before(ds[i], ds[j])
    ensures forall i, j :: 0 <= i < j < |ds| ==> KeysOf(ds)[i] != KeysOf(ds)[j]
  {
    var keys := KeysOf(ds);
    forall i, j | 0 <= i < j < |ds|
      ensures keys[i] != keys[j]
    {
      KeysOfAt(ds, i);
      KeysOfAt(ds, j);
      IsoKeyInjective(ds[i], ds[j]);
    }
  }

  /** A date before every date of a list has a key the list's keys do not contain. */
  lemma EarlierKeyAbsent(d: Date, ds: seq<Date>)
    requires ValidDate(d) && forall k :: 0 <= k < |ds| ==> ValidDate(ds[k])
    requires forall k :: 0 <= k < |ds| ==> Before(d, ds[k])
    ensures IsoKey(d) !in KeysOf(ds)
  {
    var keys := KeysOf(ds);
    forall k | 0 <= k < |ds|
      ensures keys[k] != IsoKey(d)
    {
      KeysOfAt(ds, k);
      IsoKeyInjective(d, ds[k]);
    }
  }

  /**
   * The twelve keys of a daily, weekly or monthly expansion are pairwise
   * distinct and differ from the start key, so the expansion adds exactly one
   * copy of the event to each of twelve other days.
   */
  lemma RecurringKeysDistinct(start: Date, repeat: Repeat)
    requires ValidDate(start) && repeat != NoRepeat
    ensures |RecurringKeys(start, repeat)| == OCCURRENCES
    ensures var keys := RecurringKeys(start, repeat);
      forall i, j :: 0 <= i < j < |keys| ==> keys[i] != keys[j]
    ensures IsoKey(start) !in RecurringKeys(start, repeat)
  {
    var ds := Occurrences(start, repeat, OCCURRENCES);
    OccurrencesIncreasing(start, repeat, OCCURRENCES);
    OccurrencesAfterStart(start, repeat, OCCURRENCES);
    IncreasingKeysDistinct(ds);
    EarlierKeyAbsent(start, ds);
  }
}
